=== FILE: README.md ===
# Gutenberg book listing — a Dafny model

This project models the read-only book catalogue API of the Project Gutenberg
service: the listing view that turns the query string of a request into a
filtered, de-duplicated, download-ordered list of books, the catalogue schema
behind it, and the serializer that shows each book with its authors,
languages, subjects, bookshelves and download links.

The modules follow the program:

- `Results`: `Option` and `Result` (a `Failure` carries the error the view reports).
- `Text`: the string operations the view relies on, over ASCII: `strip`, `lower`,
  `isdigit`, `split`/`join` on a separator, the integer cast of a digit
  string with Python's limit on the number of digits it converts (4300), and
  case-insensitive containment (`icontains`).
- `Models`: the tables (`Book`, `Author`, `Bookshelf`, `Language`, `Subject`,
  `Format`) and the four many-to-many join tables as immutable data. It also
  holds the column limits, well-formedness (unique primary keys, join rows
  that resolve, foreign keys of formats) and the related-row lookups.
- `QueryDicts`: the multi-valued query string, with `getlist` (all values)
  and `get` (the last value, or a default).
- `Facets`: reading and validating the six facets (`gutenberg_id`,
  `language`/`languages`, `mime_type`, `topic`, `author`, `title`) and the two
  error messages.
- `Filters`: what each facet asks of a book, and the chaining of filters.
- `Ordering`: `distinct()` and the ordering by descending download count.
- `Pagination`: the page size (default 25, `page_size` parameter) and pages
  as windows onto the ordered rows.
- `Serializers`: the output records and the projection of a book.
- `Views`: the compiled listing (`Compile`), one serialized page
  (`ListBooks`), and the laws relating requests to each other.
- `Scenarios`: worked requests against a small catalogue for the edge cases
  of the query string.

The database is not modelled as a query engine. A filter is the predicate the
generated SQL evaluates, applied to the rows of an in-memory catalogue.
Where rows with no download count go is decided by the database, so it is a
parameter (`NullPlacement`). The order of rows with equal counts is also the
database's choice. The contracts of the sort and of the listing leave it open.
The model itself computes one fixed order: a stable sort, which keeps
catalogue order among equal counts.

Points where the code behaves differently from what a reader might expect:

- The singular `language` parameter is read with `get`, which yields only its
  LAST value. So `language=en&language=fr` filters by `fr` alone; English
  books are not listed (see `Views.SingularLanguageUsesLastValue` and
  `Scenarios.RepeatedLanguageKeepsOnlyLast`). A comma inside one value
  (`language=en,fr`) does select both.
- The ordering by download count has no tie-breaker, and nothing in the code
  fixes where null download counts go.
- A `gutenberg_id` token can pass the all-digits check and still be refused:
  the integer field casts each token while the filter is built, and Python's
  `int()` refuses more than 4300 digits. The catch-all then reports the
  field's cast error (see `Facets.CastIds` and `Scenarios.OverlongIdRejected`).
  A `page_size` that long is refused by the same cast and the default of 25
  applies.
- The language facet never fails: the check that every token is a string
  cannot fire, so it is modelled as a no-op.

## Model

| member | source | states |
|---|---|---|
| Text.Strip | Gutenberg/books/views.py:41 | The stripped value is empty exactly when the input is all whitespace. Otherwise it starts and ends with non-whitespace, it is a contiguous piece of the input, and only whitespace is cut from either end. |
| Text.Lower | Gutenberg/books/views.py:48 | Lower-casing keeps the length. It maps each upper-case ASCII letter to its lower-case partner and leaves every other character alone, so no upper-case letter remains. |
| Text.Split | Gutenberg/books/views.py:41 | Splitting yields at least one part. No part contains the separator, and joining the parts with the separator gives back the input. |
| Text.SplitJoin | Gutenberg/books/views.py:41 | Splitting the join of separator-free parts gives back exactly those parts (join and split are inverse). |
| Text.SplitAround | Gutenberg/books/views.py:47-48 | Splitting `a + sep + b` gives the parts of `a` followed by the parts of `b`. The singular `language` value and the joined `languages` values therefore tokenise independently. |
| Text.JoinSplice | Gutenberg/books/views.py:41 | A value that holds a comma joins exactly like the two values on either side of that comma. |
| Text.ParseShowNat | Gutenberg/books/views.py:44 | The integer cast of a number's decimal spelling gives back that number. |
| Text.ParseNatLeadingZero | Gutenberg/books/views.py:44 | Leading zeros do not change the integer a digit string denotes (`011` asks for book 11). |
| Text.IContainsIgnoresCase | Gutenberg/books/views.py:69 | `icontains` ignores the case of both the searched text and the fragment. |
| Text.IContainsSelf | Gutenberg/books/views.py:87 | A text `icontains` any fragment that equals it up to case. |
| Models.Matching | Gutenberg/books/models.py:102 | Selecting by a foreign key keeps exactly the rows whose key matches, and never more rows than the table has. |
| Models.MatchingCounts | Gutenberg/books/models.py:102 | Selecting by a foreign key keeps each matching row as often as it occurs in the table, and no copy of any other row. |
| Models.Linked | Gutenberg/books/models.py:23-26 | A many-to-many relation through a join table yields exactly the rows some join row links to the book. |
| Models.LinkedCounts | Gutenberg/books/models.py:23-26 | Through a join table each row is reached once per join row linking it to the book (times its own copies in the table). |
| Models.FormatsOf | Gutenberg/books/models.py:98-102 | The formats of a book are exactly the format rows whose foreign key names it. |
| Models.FormatsCounted | Gutenberg/books/models.py:102 | A book has each format it owns as often as the format table holds it, and no other format. |
| Models.AuthorsOf | Gutenberg/books/models.py:23 | A book's authors are exactly the author rows that some `BookAuthor` row links to it. |
| Models.AuthorsCounted | Gutenberg/books/models.py:23 | A book has each author once per `BookAuthor` row linking the two (times the author's copies in its table). |
| Models.BookshelvesOf | Gutenberg/books/models.py:24 | A book's bookshelves are exactly the bookshelf rows that some `BookBookshelf` row links to it. |
| Models.BookshelvesCounted | Gutenberg/books/models.py:24 | A book has each bookshelf once per `BookBookshelf` row linking the two. |
| Models.LanguagesOf | Gutenberg/books/models.py:25 | A book's languages are exactly the language rows that some `BookLanguage` row links to it. |
| Models.LanguagesCounted | Gutenberg/books/models.py:25 | A book has each language once per `BookLanguage` row linking the two. |
| Models.SubjectsOf | Gutenberg/books/models.py:26 | A book's subjects are exactly the subject rows that some `BookSubject` row links to it. |
| Models.SubjectsCounted | Gutenberg/books/models.py:26 | A book has each subject once per `BookSubject` row linking the two. |
| Models.UniqueRowOnce | Gutenberg/books/models.py:16 | Under a unique primary key every row occurs in its table once. |
| Models.AuthorOncePerLink | Gutenberg/books/models.py:35-41 | In a well-formed catalogue a linked author appears among the book's authors exactly as many times as there are `BookAuthor` rows linking the two; the join table does not forbid duplicates. |
| Models.MatchingUnique | Gutenberg/books/models.py:16 | Under a unique primary key, a present key matches exactly one row. |
| Models.LinkedOnePerLink | Gutenberg/books/models.py:35-41 | With unique primary keys and join rows that resolve, a book has one related row per join row that names it. |
| Models.AuthorsOnePerLink | Gutenberg/books/models.py:23 | In a well-formed catalogue a book has as many authors as `BookAuthor` rows naming it. |
| Models.FormatHasOneOwner | Gutenberg/books/models.py:102 | In a well-formed catalogue every format row belongs to exactly one book. |
| QueryDicts.Get | Gutenberg/books/views.py:47 | `get` yields the default when the parameter has no value, and otherwise one of the parameter's values. |
| QueryDicts.GetTakesLast | Gutenberg/books/views.py:47 | Whatever values came before, `get` yields the value given last. |
| Facets.CastIds | Gutenberg/books/views.py:44 | Building the `gutenberg_id__in` filter casts the tokens in order. It succeeds exactly when no token has more than 4300 digits, and then yields each token's number at the token's position. Otherwise it fails with the cast error naming the first token that is too long. |
| Facets.ParseIds | Gutenberg/books/views.py:39-44 | The `gutenberg_id` facet fails with the `gutenberg_id` error exactly when some comma-separated, stripped token is not all digits. With all tokens digits, it fails with the cast error of the first token longer than 4300 digits. Otherwise it succeeds; it is empty exactly when no value was given, and its numbers are exactly those the tokens denote. |
| Facets.LowerAll | Gutenberg/books/views.py:62 | The `mime_type` values are lower-cased one by one, keeping their number and order. |
| Facets.NormalizeLanguages | Gutenberg/books/views.py:48 | The language tokens are exactly the non-blank raw tokens, stripped and lower-cased. Each is non-empty, has no surrounding whitespace, and has no upper-case letter. |
| Facets.CheckAuthors | Gutenberg/books/views.py:73-79 | The author loop fails with the `author` error exactly when some value is all digits. Otherwise it keeps every value unchanged. |
| Facets.Validate | Gutenberg/books/views.py:37-95 | Validation succeeds exactly when both `gutenberg_id` (all digits, none too long to cast) and `author` are acceptable. A `gutenberg_id` error (invalid, or the cast error) wins when both fail. On success each facet holds its parsed or normalised values: ids parsed, languages tokenised, mime types lower-cased, topic/author/title verbatim. |
| Filters.Where | Gutenberg/books/views.py:38-88 | A chain of filters keeps exactly the books of which every filter holds, and never adds rows. |
| Filters.HoldsWidens | Gutenberg/books/views.py:66-88 | A facet with more alternatives (OR-ed `Q` terms or a larger `__in` list) holds of every book the smaller one holds of. |
| Filters.WhereNarrows | Gutenberg/books/views.py:44-88 | Chaining one more filter keeps exactly the earlier rows of which the new filter holds. |
| Ordering.Distinct | Gutenberg/books/views.py:90 | `distinct()` keeps every row that was there, adds none, and leaves each at most once. |
| Ordering.AtMostOnceDistinctPositions | Gutenberg/books/views.py:90 | After `distinct()` two different positions hold different rows. |
| Ordering.SortByDownloads | Gutenberg/books/views.py:26 | The ordering is a permutation of its input, by descending download count, with null counts grouped at the end the database puts them. |
| Ordering.InsertKeepsOrder | Gutenberg/books/views.py:26 | Inserting a book into a list already by descending download count keeps that order. |
| Ordering.ByDownloadsMeaning | Gutenberg/books/views.py:26 | In the ordered list an earlier known count is at least any later known count. A null count is followed only by nulls (nulls last) or preceded only by nulls (nulls first). |
| Pagination.PageSize | Gutenberg/books/views.py:11-12 | The page size is at least one. It is 25 when no `page_size` is given. When the last `page_size` value is a positive decimal number of at most 4300 digits, that number is the size. It differs from 25 only in that case. |
| Pagination.PageSizeHonoured | Gutenberg/books/views.py:12 | Asking for a positive size by its decimal spelling (at most 4300 digits) gets exactly that size. |
| Pagination.PageSizeFallsBack | Gutenberg/books/views.py:11 | A `page_size` that is not a positive number the cast accepts (not all digits, more than 4300 digits, or zero) falls back to 25. |
| Pagination.Page | Gutenberg/books/views.py:10-12 | A page has at most `size` rows. Its i-th row is the row at the page's offset plus i. It is full while rows remain and empty past the end. |
| Pagination.PagesPartition | Gutenberg/books/views.py:10-12 | Pages 1 to n, laid end to end, are exactly the first n·size rows: consecutive pages neither overlap nor leave gaps. |
| Pagination.RowOnItsPage | Gutenberg/books/views.py:10-12 | Every row appears on some page, at the position its index predicts. |
| Serializers.DownloadLinks | Gutenberg/books/serializers.py:50-53 | A book's download links are exactly the mime type and URL of the formats whose foreign key names that book: the i-th link is the i-th owned format's, one link per such format. |
| Serializers.SerializeBook | Gutenberg/books/serializers.py:35-48 | The shown book carries its title. Its authors, languages, subjects and bookshelves are exactly the projections (name and years, code, name, name) of the rows some join row links to the book: the i-th entry is the i-th linked row's, one entry per linked row. Its download links are the mime type and URL of the formats the book owns, entry by entry. |
| Serializers.HidesBookColumns | Gutenberg/books/serializers.py:46-48 | The shown book does not depend on its download count, Gutenberg id or media type: those columns are not among the serialized fields. |
| Serializers.LinksIgnoreOtherBooks | Gutenberg/books/serializers.py:52 | Adding formats of other books never changes a book's download links. |
| Views.CriteriaMeaning | Gutenberg/books/views.py:38-88 | The chained filters hold of a book exactly when every facet that has values holds of it. A facet without values asks nothing. |
| Views.Compile | Gutenberg/books/views.py:33-95 | The listing succeeds exactly when `gutenberg_id` (all digits, none too long to cast) and `author` are acceptable, and otherwise reports the first failing facet's error (for `gutenberg_id`, the validation error or else the cast error). On success it lists exactly the catalogue's books that every given facet keeps, each once, by descending download count. |
| Views.Listing | Gutenberg/books/views.py:26-90 | The validated facets applied to the catalogue keep exactly the books every facet accepts, each once, ordered by download count. |
| Views.ListBooks | Gutenberg/books/views.py:10-31 | A page of the response fails exactly when the listing fails, with the same error. On success it holds as many books as the page window holds: a full page size while rows remain, fewer at the end, none past it. Its i-th entry is the listing's row at the page's offset plus i, as the serializer shows it. |
| Views.SerializeAll | Gutenberg/books/views.py:29 | The page is serialized book by book: one output per book, in page order, each as the book serializer shows it. |
| Views.ListedKeysUnique | Gutenberg/books/views.py:90 | In a well-formed catalogue no book is listed twice, not even under the same primary key. |
| Views.MoreFacetsNarrow | Gutenberg/books/views.py:38-88 | Facet values that ask for more (more facets given) keep only books the fewer facets keep. |
| Views.MoreValuesWiden | Gutenberg/books/views.py:38-88 | Facet values that list more alternatives for the same facets keep every book the shorter lists keep. |
| Views.AddingFacetNeverEnlarges | Gutenberg/books/views.py:38-88 | Adding a facet the request did not use never adds a book to the listing. If the larger request succeeds, so does the smaller one, and it lists a superset. |
| Views.AddingValueNeverShrinks | Gutenberg/books/views.py:38-88 | Appending one more value to a facet the request already uses never removes a book from the listing. |
| Views.IdsAppendWiden | Gutenberg/books/views.py:41 | Appending a `gutenberg_id` value keeps every id the earlier values asked for. |
| Views.LanguagesAppendWiden | Gutenberg/books/views.py:47-48 | Appending a `languages` value keeps every language token the earlier values gave. |
| Views.SingularLanguageUsesLastValue | Gutenberg/books/views.py:47 | Of several `language` values only the last one affects the listing. |
| Views.CommaJoinedAsRepeated | Gutenberg/books/views.py:41-48 | For `gutenberg_id` and `languages`, one value `a,b` lists exactly as the two values `a` and `b`. |
| Scenarios.EnglishListsEnglishBook | Gutenberg/books/views.py:47-57 | `language=en` lists a book linked to the English language row. |
| Scenarios.RepeatedLanguageKeepsOnlyLast | Gutenberg/books/views.py:47 | `language=en&language=fr` no longer lists that English book. |
| Scenarios.StrayCommaRejected | Gutenberg/books/views.py:41-43 | `gutenberg_id=11,` is refused with the `gutenberg_id` error, because of the empty token after the comma. |
| Scenarios.CommaJoinedIds | Gutenberg/books/views.py:41-44 | `gutenberg_id=11,76` asks for ids 11 and 76. |
| Scenarios.OverlongIdRejected | Gutenberg/books/views.py:42-44 | A `gutenberg_id` of 4301 digits passes the digit check but fails the integer cast, and the request reports the cast error naming it. |
| Scenarios.NumericAuthorRejected | Gutenberg/books/views.py:77-78 | `author=123` is refused with the `author` error. |
| Scenarios.PaddedAuthorAccepted | Gutenberg/books/views.py:77-79 | `author= 123` (leading blank) is accepted and searched for verbatim. |
| Scenarios.GutenbergIdErrorWins | Gutenberg/books/views.py:38-78 | With both `gutenberg_id` and `author` invalid, the `gutenberg_id` error is reported. |
| Scenarios.FoundByOwnTitle | Gutenberg/books/views.py:83-87 | A `title` value equal to a catalogue book's title up to case lists that book. |
| Scenarios.SecondPageOfTen | Gutenberg/books/views.py:10-12 | For any request with `page_size=10` whose listing has at least 20 books, page 2 of the response is exactly the 11th to the 20th listed books, serialized. |

## Left out

- Database execution: the ORM query, joins, `prefetch_related` and SQL are not modelled. Filters are predicates over an in-memory catalogue. The query set is lazy: the paginator evaluates it after `get_queryset` has returned, outside its `try`, so database errors never reach the catch-all. The catch-all `except Exception` (views.py:94-95) catches errors raised while the filters are built. The one the model produces is the integer cast of a `gutenberg_id` token that is too long (`ApiError.Failed`, `Facets.CastIds`).
- Facets.ParseIds: a token within the cast's 4300 digits but beyond the database's integer column range is accepted here. What the database does with it when the query is evaluated is not modelled.
- The `ValidationError` wrapping under `"error"` (views.py:92-93) is the `ApiError.Invalid(facet, message)` value. The HTTP 400 response body is not modelled.
- The debug `print` of the parsed languages (views.py:49) is output only and is left out.
- The language validity check (views.py:52-54) cannot fail, since every token is a string, so it is a no-op.
- The pagination envelope (total count, page count, next and previous links; views.py:14-22) and the URL routing belong to the web framework and are not modelled. A page is a plain window onto the ordered rows.
- Pagination.Page: a page number past the end yields an empty page. The framework's not-found response for such a page is not modelled.
- Views.ListBooks: a page number past the last page yields `Success` with no books, where the framework answers "not found"; that response is not modelled.
- Pagination.PageSize: accepts only a plain string of decimal digits. Other spellings the framework's integer parsing accepts (surrounding blanks, a leading `+`) fall back to 25 here. No maximum page size is configured, so none is modelled.
- Text.Strip, Text.Lower, Text.IsDigit: ASCII semantics only. Unicode whitespace, Unicode case mapping and Unicode digits (which Python's `isdigit` accepts but the integer cast may reject) are not modelled.
- Pagination.PagesPartition: holds for pages cut from one fixed listing order. The program runs a fresh ordered query with an offset and limit for each page, and the database may order books with equal (or null) download counts differently each time. Such books can then repeat or be skipped between pages, which the model does not capture.
- Models.Matching, Models.FormatsOf, Models.AuthorsOf, Models.BookshelvesOf, Models.LanguagesOf, Models.SubjectsOf, Models.Linked: their own contracts state which rows occur; how often each occurs is stated separately by the matching `…Counted` lemma, `Models.MatchingCounts` and `Models.LinkedCounts`, so that proofs about filters need not carry the counting law.
- QueryDicts.Get: its own contract promises only one of the values; that it is the last one is stated separately by QueryDicts.GetTakesLast.
- Ordering.SortByDownloads: places null download counts per a `NullPlacement` parameter, because the database decides that. It promises nothing about the order of books with equal counts, because the code gives no tie-breaker.
- The order of related rows (authors, languages, subjects, bookshelves, formats) is the order of the catalogue's tables. The database promises no order here.
- The surrogate `id` columns of the join tables (models.py:35-95) carry no meaning for the listing and are omitted. A join row is modelled as the pair of keys it links.
- Column limits are stated as a well-formedness predicate over the catalogue (`Models.ColumnsFit`). Integer widths are checked there, not modelled as wrap-around.
- The book detail route (retrieve by primary key) of the read-only view set is not modelled. It applies the same query set and serializer.

=== FILE: facets.dfy ===
/** Reading and validating the six facets from the query string, in the
    order the listing view reads them. Two facets can be rejected
    (`gutenberg_id`, `author`); the first rejection ends the request. */
module Facets {
  import opened Results
  import opened Text
  import opened QueryDicts

  const GutenbergIdKey := "gutenberg_id"
  const LanguageKey := "language"
  const LanguagesKey := "languages"
  const MimeTypeKey := "mime_type"
  const TopicKey := "topic"
  const AuthorKey := "author"
  const TitleKey := "title"

  /** The seven parameter names are pairwise different. */
  lemma ParameterNamesDistinct()
    ensures GutenbergIdKey != LanguageKey && GutenbergIdKey != LanguagesKey && GutenbergIdKey != MimeTypeKey
    ensures GutenbergIdKey != TopicKey && GutenbergIdKey != AuthorKey && GutenbergIdKey != TitleKey
    ensures LanguageKey != LanguagesKey && LanguageKey != MimeTypeKey && LanguageKey != TopicKey
    ensures LanguageKey != AuthorKey && LanguageKey != TitleKey
    ensures LanguagesKey != MimeTypeKey && LanguagesKey != TopicKey && LanguagesKey != AuthorKey && LanguagesKey != TitleKey
    ensures MimeTypeKey != TopicKey && MimeTypeKey != AuthorKey && MimeTypeKey != TitleKey
    ensures TopicKey != AuthorKey && TopicKey != TitleKey && AuthorKey != TitleKey
  {
    assert TopicKey[1] != TitleKey[1];
  }

  const GutenbergIdMessage := "All Gutenberg IDs must be integers."
  const AuthorMessage := "Author filter must be a string, not a numeric ID."

  /** The error the listing raises, always wrapped under the key "error":
      one facet's validation message, or the text of any other exception
      raised while the query is built. */
  datatype ApiError = Invalid(facet: string, message: string) | Failed(detail: string)

  /** The validated values of every facet; an empty sequence means the facet
      imposes nothing. */
  datatype FacetValues = FacetValues(
    ids: seq<nat>,
    languages: seq<string>,
    mimeTypes: seq<string>,
    topics: seq<string>,
    authors: seq<string>,
    titles: seq<string>)

  function StripAll(ts: seq<string>): (r: seq<string>)
    ensures |r| == |ts|
    ensures forall i :: 0 <= i < |ts| ==> r[i] == Strip(ts[i])
  {
    if ts == [] then [] else [Strip(ts[0])] + StripAll(ts[1..])
  }

  function LowerAll(ts: seq<string>): (r: seq<string>)
    ensures |r| == |ts|
    ensures forall i :: 0 <= i < |ts| ==> r[i] == Lower(ts[i])
  {
    if ts == [] then [] else [Lower(ts[0])] + LowerAll(ts[1..])
  }

  /** The `gutenberg_id` tokens: every value comma-joined, split again on
      commas, each token stripped. A stray comma leaves an empty token. */
  function IdTokens(values: seq<string>): seq<string> {
    StripAll(Split(Join(values, ','), ','))
  }

  /** The `gutenberg_id` facet is absent or every token is all digits. */
  predicate IdsValid(values: seq<string>) {
    values == [] || forall t :: t in IdTokens(values) ==> IsDigit(t)
  }

  /** No `gutenberg_id` token has more digits than the integer cast accepts. */
  predicate IdsFit(values: seq<string>) {
    forall t :: t in IdTokens(values) ==> |t| <= MaxIntDigits
  }

  /** Position `k` holds the first token too long for the integer cast. */
  predicate FirstTooLong(tokens: seq<string>, k: int) {
    && 0 <= k < |tokens|
    && |tokens[k]| > MaxIntDigits
    && forall j :: 0 <= j < k ==> |tokens[j]| <= MaxIntDigits
  }

  /** The text of the error the integer field raises when it cannot cast a
      token: the field's name and the token as Python quotes it. */
  function CastMessage(t: string): string {
    "Field '" + GutenbergIdKey + "' expected a number but got '" + t + "'."
  }

  /** The `__in` lookup preparing its values while the filter is built: each
      token cast to an integer, in order. The first token too long for the
      cast raises, and the view's catch-all reports that error. */
  function CastIds(tokens: seq<string>): (r: Result<seq<nat>, ApiError>)
    requires forall i :: 0 <= i < |tokens| ==> IsDigit(tokens[i])
    ensures r.Success? <==> forall t :: t in tokens ==> |t| <= MaxIntDigits
    ensures r.Success? ==> |r.value| == |tokens|
    ensures r.Success? ==> forall i :: 0 <= i < |tokens| ==> IsDigit(tokens[i]) && r.value[i] == ParseNat(tokens[i])
    ensures r.Failure? ==> exists k :: FirstTooLong(tokens, k) && r.error == Failed(CastMessage(tokens[k]))
  {
    if tokens == [] then Success([])
    else
      assert tokens[0] in tokens;
      if |tokens[0]| > MaxIntDigits then
        assert FirstTooLong(tokens, 0);
        Failure(Failed(CastMessage(tokens[0])))
      else
        assert forall t :: t in tokens <==> t == tokens[0] || t in tokens[1..];
        var rest := CastIds(tokens[1..]);
        if rest.Failure? then
          var k :| FirstTooLong(tokens[1..], k) && rest.error == Failed(CastMessage(tokens[1..][k]));
          assert FirstTooLong(tokens, k + 1);
          Failure(rest.error)
        else
          assert IsDigit(tokens[0]);
          Success([ParseNat(tokens[0])] + rest.value)
  }

  /** The `gutenberg_id` facet: the `gutenberg_id` error when some token is
      not all digits; otherwise the numbers the tokens denote, or the cast
      error of the first token with too many digits. */
  function ParseIds(values: seq<string>): (r: Result<seq<nat>, ApiError>)
    ensures r.Success? <==> IdsValid(values) && IdsFit(values)
    ensures !IdsValid(values) ==> r == Failure(Invalid(GutenbergIdKey, GutenbergIdMessage))
    ensures IdsValid(values) && !IdsFit(values) ==>
      exists k :: FirstTooLong(IdTokens(values), k) && r == Failure(Failed(CastMessage(IdTokens(values)[k])))
    ensures r.Success? ==> (r.value == [] <==> values == [])
    ensures r.Success? ==> forall n :: n in r.value <==> exists t :: t in IdTokens(values) && IsDigit(t) && ParseNat(t) == n
  {
    if values == [] then
      assert IdTokens(values) == [""];
      Success([])
    else
      var tokens := IdTokens(values);
      if forall t :: t in tokens ==> IsDigit(t) then
        var r := CastIds(tokens);
        if r.Success? then
          CastIdsMembers(tokens, r.value);
          r
        else r
      else Failure(Invalid(GutenbergIdKey, GutenbergIdMessage))
  }

  /** The cast numbers are exactly the numbers the tokens denote. */
  lemma CastIdsMembers(tokens: seq<string>, ns: seq<nat>)
    requires forall i :: 0 <= i < |tokens| ==> IsDigit(tokens[i])
    requires |ns| == |tokens| && forall i :: 0 <= i < |tokens| ==> IsDigit(tokens[i]) && ns[i] == ParseNat(tokens[i])
    ensures forall n :: n in ns <==> exists t :: t in tokens && IsDigit(t) && ParseNat(t) == n
  {
  }

  /** The raw language tokens: the single `language` value, a comma, then
      every `languages` value comma-joined; split on commas. */
  function RawLanguageTokens(language: string, languages: seq<string>): seq<string> {
    Split(language + "," + Join(languages, ','), ',')
  }

  /** Each token stripped and lower-cased; blank tokens dropped. */
  function NormalizeLanguages(raw: seq<string>): (r: seq<string>)
    ensures forall t :: t in r <==> exists x :: x in raw && !AllSpace(x) && t == Lower(Strip(x))
    ensures forall t :: t in r ==> t != [] && !IsSpace(t[0]) && !IsSpace(t[|t| - 1])
    ensures forall t :: t in r ==> forall i :: 0 <= i < |t| ==> !IsUpper(t[i])
  {
    if raw == [] then []
    else
      var head := if Strip(raw[0]) != [] then [Lower(Strip(raw[0]))] else [];
      var rest := NormalizeLanguages(raw[1..]);
      assert forall x :: x in raw <==> x == raw[0] || x in raw[1..];
      head + rest
  }

  /** The `language`/`languages` facet. It never fails. */
  function LanguageTokens(language: string, languages: seq<string>): seq<string> {
    NormalizeLanguages(RawLanguageTokens(language, languages))
  }

  /** No `author` value is all digits. */
  predicate AuthorsValid(names: seq<string>) {
    forall t :: t in names ==> !IsDigit(t)
  }

  /** The `author` loop: stops with the `author` error at the first value
      that is all digits, otherwise keeps every value as given. */
  function CheckAuthors(names: seq<string>): (r: Result<seq<string>, ApiError>)
    ensures r.Success? <==> forall t :: t in names ==> !IsDigit(t)
    ensures r.Success? ==> r.value == names
    ensures r.Failure? ==> r.error == Invalid(AuthorKey, AuthorMessage)
  {
    if names == [] then Success([])
    else if IsDigit(names[0]) then Failure(Invalid(AuthorKey, AuthorMessage))
    else
      assert forall t :: t in names <==> t == names[0] || t in names[1..];
      var rest :- CheckAuthors(names[1..]);
      Success([names[0]] + rest)
  }

  /** The raw values of the six facets as the view reads them: `getlist`
      for every parameter except the singular `language`, read with `get`,
      which yields only its last value. */
  datatype RawFacets = RawFacets(
    ids: seq<string>,
    language: string,
    languages: seq<string>,
    mimeTypes: seq<string>,
    topics: seq<string>,
    authors: seq<string>,
    titles: seq<string>)

  function ReadFacets(q: QueryDict): RawFacets {
    RawFacets(
      GetList(q, GutenbergIdKey),
      Get(q, LanguageKey, ""),
      GetList(q, LanguagesKey),
      GetList(q, MimeTypeKey),
      GetList(q, TopicKey),
      GetList(q, AuthorKey),
      GetList(q, TitleKey))
  }

  /** All six facets, validated in source order: `gutenberg_id`, languages,
      `mime_type`, `topic`, `author`, `title`. The first failure is the one
      reported, so a `gutenberg_id` error (not all digits, or too many for the
      cast) wins when `author` fails too. */
  function Validate(raw: RawFacets): (r: Result<FacetValues, ApiError>)
    ensures r.Success? <==> IdsValid(raw.ids) && IdsFit(raw.ids) && AuthorsValid(raw.authors)
    ensures !IdsValid(raw.ids) ==> r == Failure(Invalid(GutenbergIdKey, GutenbergIdMessage))
    ensures IdsValid(raw.ids) && !IdsFit(raw.ids) ==> r == Failure(ParseIds(raw.ids).error)
    ensures IdsValid(raw.ids) && IdsFit(raw.ids) && !AuthorsValid(raw.authors) ==> r == Failure(Invalid(AuthorKey, AuthorMessage))
    ensures r.Success? ==> r.value.ids == ParseIds(raw.ids).value
    ensures r.Success? ==> r.value.languages == LanguageTokens(raw.language, raw.languages)
    ensures r.Success? ==> r.value.mimeTypes == LowerAll(raw.mimeTypes)
    ensures r.Success? ==> r.value.topics == raw.topics
    ensures r.Success? ==> r.value.authors == raw.authors
    ensures r.Success? ==> r.value.titles == raw.titles
  {
    var ids :- ParseIds(raw.ids);
    var languages := LanguageTokens(raw.language, raw.languages);
    var mimeTypes := LowerAll(raw.mimeTypes);
    var topics := raw.topics;
    var authors :- CheckAuthors(raw.authors);
    var titles := raw.titles;
    Success(FacetValues(ids, languages, mimeTypes, topics, authors, titles))
  }
}

=== FILE: filters.dfy ===
/** The per-facet conditions a book must meet, and their conjunction. Each
    facet is an existential over the book's own associations, OR-ed over the
    facet's values; active facets are AND-ed together. */
module Filters {
  import opened Text
  import opened Models

  /** The book's external catalogue number is one of `ids`. */
  predicate HasGutenbergId(b: Book, ids: seq<nat>) {
    b.gutenbergId in ids
  }

  /** Some language linked to the book has one of `codes`, exactly. */
  predicate InLanguage(cat: Catalog, b: Book, codes: seq<string>) {
    exists g :: g in LanguagesOf(cat, b.id) && g.code in codes
  }

  /** Some format owned by the book has one of `types`, exactly. */
  predicate OffersMimeType(cat: Catalog, b: Book, types: seq<string>) {
    exists f :: f in FormatsOf(cat, b.id) && f.mimeType in types
  }

  /** The token occurs, ignoring case, in the name of one of the book's
      subjects or in the name of one of its bookshelves. */
  predicate MentionsTopic(cat: Catalog, b: Book, token: string) {
    || (exists s :: s in SubjectsOf(cat, b.id) && IContains(s.name, token))
    || (exists s :: s in BookshelvesOf(cat, b.id) && IContains(s.name, token))
  }

  predicate OnTopic(cat: Catalog, b: Book, tokens: seq<string>) {
    exists t :: t in tokens && MentionsTopic(cat, b, t)
  }

  /** Some token occurs, ignoring case, in the name of one of the book's authors. */
  predicate ByAuthor(cat: Catalog, b: Book, tokens: seq<string>) {
    exists t, a :: t in tokens && a in AuthorsOf(cat, b.id) && IContains(a.name, t)
  }

  /** The book has a title and some token occurs in it, ignoring case; a
      null title matches nothing. */
  predicate Titled(b: Book, tokens: seq<string>) {
    b.title.Some? && exists t :: t in tokens && IContains(b.title.value, t)
  }

  /** One facet's compiled condition. */
  datatype Filter =
    | GutenbergIdIn(ids: seq<nat>)
    | LanguageIn(codes: seq<string>)
    | MimeTypeIn(types: seq<string>)
    | TopicLike(topics: seq<string>)
    | AuthorLike(names: seq<string>)
    | TitleLike(titles: seq<string>)

  predicate Holds(cat: Catalog, b: Book, f: Filter) {
    match f
    case GutenbergIdIn(ids) => HasGutenbergId(b, ids)
    case LanguageIn(codes) => InLanguage(cat, b, codes)
    case MimeTypeIn(types) => OffersMimeType(cat, b, types)
    case TopicLike(topics) => OnTopic(cat, b, topics)
    case AuthorLike(names) => ByAuthor(cat, b, names)
    case TitleLike(titles) => Titled(b, titles)
  }

  /** A chain of filters: every one of them holds. */
  predicate HoldsAll(cat: Catalog, b: Book, fs: seq<Filter>) {
    forall f :: f in fs ==> Holds(cat, b, f)
  }

  /** The books of `books` that pass every filter of `fs`, in their order. */
  function Where(books: seq<Book>, cat: Catalog, fs: seq<Filter>): (r: seq<Book>)
    ensures forall b :: b in r <==> b in books && HoldsAll(cat, b, fs)
    ensures |r| <= |books|
  {
    if books == [] then []
    else
      var rest := Where(books[1..], cat, fs);
      assert forall b :: b in books <==> b == books[0] || b in books[1..];
      if HoldsAll(cat, books[0], fs) then [books[0]] + rest else rest
  }

  /** Every value of `a` is a value of `b`. */
  predicate Included<T(==)>(a: seq<T>, b: seq<T>) {
    forall x :: x in a ==> x in b
  }

  /** `g` is the same facet as `f`, with at least `f`'s values. */
  predicate Widens(f: Filter, g: Filter) {
    match (f, g)
    case (GutenbergIdIn(a), GutenbergIdIn(b)) => Included(a, b)
    case (LanguageIn(a), LanguageIn(b)) => Included(a, b)
    case (MimeTypeIn(a), MimeTypeIn(b)) => Included(a, b)
    case (TopicLike(a), TopicLike(b)) => Included(a, b)
    case (AuthorLike(a), AuthorLike(b)) => Included(a, b)
    case (TitleLike(a), TitleLike(b)) => Included(a, b)
    case _ => false
  }

  /** OR within a facet: more values never reject a book fewer values kept. */
  lemma HoldsWidens(cat: Catalog, b: Book, f: Filter, g: Filter)
    requires Widens(f, g)
    ensures Holds(cat, b, f) ==> Holds(cat, b, g)
  {
  }

  /** AND across facets: one more filter never admits a book the chain rejected. */
  lemma WhereNarrows(books: seq<Book>, cat: Catalog, fs: seq<Filter>, f: Filter)
    ensures Included(Where(books, cat, fs + [f]), Where(books, cat, fs))
    ensures forall b :: b in Where(books, cat, fs + [f]) <==> b in Where(books, cat, fs) && Holds(cat, b, f)
  {
    forall b | HoldsAll(cat, b, fs + [f])
      ensures HoldsAll(cat, b, fs) && Holds(cat, b, f)
    {
      assert forall g :: g in fs ==> g in fs + [f];
    }
  }
}

=== FILE: models.dfy ===
/** The catalogue schema: six entity tables, each keyed by an integer primary
    key, and four many-to-many join tables linking a book to its authors,
    bookshelves, languages and subjects. A format belongs to exactly one book
    through its foreign key. The catalogue is read-only here. */
module Models {
  import opened Results

  datatype Author = Author(id: int, birthYear: Option<int>, deathYear: Option<int>, name: string)

  /** `downloadCount` and `title` are nullable; `gutenbergId` and `mediaType` are required. */
  datatype Book = Book(id: int, downloadCount: Option<int>, gutenbergId: int, mediaType: string, title: Option<string>)

  datatype Bookshelf = Bookshelf(id: int, name: string)

  datatype Language = Language(id: int, code: string)

  datatype Subject = Subject(id: int, name: string)

  /** A downloadable file; `book` is the primary key of the one book that owns it. */
  datatype Format = Format(id: int, mimeType: string, url: string, book: int)

  /** One row of a join table: the primary key of one book and of one related entity. */
  datatype Link = Link(book: int, target: int)

  datatype Catalog = Catalog(
    books: seq<Book>,
    authors: seq<Author>,
    bookshelves: seq<Bookshelf>,
    languages: seq<Language>,
    subjects: seq<Subject>,
    formats: seq<Format>,
    bookAuthors: seq<Link>,
    bookBookshelves: seq<Link>,
    bookLanguages: seq<Link>,
    bookSubjects: seq<Link>)

  const MediaTypeMaxLength := 16
  const AuthorNameMaxLength := 128
  const BookshelfNameMaxLength := 64
  const LanguageCodeMaxLength := 4
  const MimeTypeMaxLength := 32

  /** Range of an IntegerField column. */
  predicate IsInteger(n: int) {
    -0x8000_0000 <= n < 0x8000_0000
  }

  /** Range of a SmallIntegerField column. */
  predicate IsSmallInteger(n: int) {
    -0x8000 <= n < 0x8000
  }

  predicate OptionalSmallInteger(n: Option<int>) {
    n.None? || IsSmallInteger(n.value)
  }

  function BookId(b: Book): int { b.id }
  function AuthorId(a: Author): int { a.id }
  function BookshelfId(s: Bookshelf): int { s.id }
  function LanguageId(l: Language): int { l.id }
  function SubjectId(s: Subject): int { s.id }
  function FormatId(f: Format): int { f.id }
  function FormatBook(f: Format): int { f.book }

  /** No two rows of `table` share a primary key. */
  predicate UniqueKeys<T>(table: seq<T>, key: T -> int) {
    forall i, j :: 0 <= i < j < |table| ==> key(table[i]) != key(table[j])
  }

  predicate HasKey<T>(table: seq<T>, key: T -> int, k: int) {
    exists i :: 0 <= i < |table| && key(table[i]) == k
  }

  /** Every row of a join table references an existing book and an existing related row. */
  predicate LinksResolve<T>(links: seq<Link>, books: seq<Book>, table: seq<T>, key: T -> int) {
    forall l :: l in links ==> HasKey(books, BookId, l.book) && HasKey(table, key, l.target)
  }

  predicate BookColumnsFit(b: Book) {
    && IsInteger(b.id) && IsInteger(b.gutenbergId)
    && (b.downloadCount.None? || IsInteger(b.downloadCount.value))
    && |b.mediaType| <= MediaTypeMaxLength
  }

  predicate AuthorColumnsFit(a: Author) {
    && IsInteger(a.id)
    && OptionalSmallInteger(a.birthYear) && OptionalSmallInteger(a.deathYear)
    && |a.name| <= AuthorNameMaxLength
  }

  /** The column bounds the schema declares, on every row. */
  predicate ColumnsFit(cat: Catalog) {
    && (forall b :: b in cat.books ==> BookColumnsFit(b))
    && (forall a :: a in cat.authors ==> AuthorColumnsFit(a))
    && (forall s :: s in cat.bookshelves ==> IsInteger(s.id) && |s.name| <= BookshelfNameMaxLength)
    && (forall l :: l in cat.languages ==> IsInteger(l.id) && |l.code| <= LanguageCodeMaxLength)
    && (forall s :: s in cat.subjects ==> IsInteger(s.id))
    && (forall f :: f in cat.formats ==> IsInteger(f.id) && |f.mimeType| <= MimeTypeMaxLength)
  }

  /** The integrity the store enforces: primary keys are unique, every join
      row and every format references rows that exist, and columns fit. */
  predicate WellFormed(cat: Catalog) {
    && UniqueKeys(cat.books, BookId)
    && UniqueKeys(cat.authors, AuthorId)
    && UniqueKeys(cat.bookshelves, BookshelfId)
    && UniqueKeys(cat.languages, LanguageId)
    && UniqueKeys(cat.subjects, SubjectId)
    && UniqueKeys(cat.formats, FormatId)
    && LinksResolve(cat.bookAuthors, cat.books, cat.authors, AuthorId)
    && LinksResolve(cat.bookBookshelves, cat.books, cat.bookshelves, BookshelfId)
    && LinksResolve(cat.bookLanguages, cat.books, cat.languages, LanguageId)
    && LinksResolve(cat.bookSubjects, cat.books, cat.subjects, SubjectId)
    && (forall f :: f in cat.formats ==> HasKey(cat.books, BookId, f.book))
    && ColumnsFit(cat)
  }

  /** The rows of `table` whose `key` is `k`, in table order. */
  function Matching<T(==,!new)>(table: seq<T>, key: T -> int, k: int): (r: seq<T>)
    ensures forall x :: x in r <==> x in table && key(x) == k
    ensures |r| <= |table|
  {
    if table == [] then []
    else (if key(table[0]) == k then [table[0]] else []) + Matching(table[1..], key, k)
  }

  /** Selecting by key keeps every copy of a matching row and none of the
      others. */
  lemma {:induction false} MatchingCounts<T(!new)>(table: seq<T>, key: T -> int, k: int)
    ensures forall x :: multiset(Matching(table, key, k))[x] == if key(x) == k then multiset(table)[x] else 0
  {
    if table != [] {
      MatchingCounts(table[1..], key, k);
      var here := if key(table[0]) == k then [table[0]] else [];
      assert table == [table[0]] + table[1..];
      assert Matching(table, key, k) == here + Matching(table[1..], key, k);
    }
  }

  /** Selecting by key distributes over concatenation of tables. */
  lemma {:induction false} MatchingAppend<T(!new)>(a: seq<T>, b: seq<T>, key: T -> int, k: int)
    ensures Matching(a + b, key, k) == Matching(a, key, k) + Matching(b, key, k)
  {
    if a == [] {
      assert a + b == b;
    } else {
      assert (a + b)[1..] == a[1..] + b;
      MatchingAppend(a[1..], b, key, k);
    }
  }

  lemma {:induction false} MatchingAbsent<T(!new)>(table: seq<T>, key: T -> int, k: int)
    requires forall i :: 0 <= i < |table| ==> key(table[i]) != k
    ensures Matching(table, key, k) == []
  {
    if table != [] {
      MatchingAbsent(table[1..], key, k);
    }
  }

  /** With unique keys, a key that exists selects exactly one row. */
  lemma {:induction false} MatchingUnique<T(!new)>(table: seq<T>, key: T -> int, k: int)
    requires UniqueKeys(table, key) && HasKey(table, key, k)
    ensures |Matching(table, key, k)| == 1
  {
    var tail := table[1..];
    if key(table[0]) == k {
      forall j | 0 <= j < |tail|
        ensures key(tail[j]) != k
      {
        assert tail[j] == table[j + 1];
      }
      MatchingAbsent(tail, key, k);
    } else {
      var x :| x in table && key(x) == k;
      assert x in tail;
      assert UniqueKeys(tail, key) by {
        forall i, j | 0 <= i < j < |tail|
          ensures key(tail[i]) != key(tail[j])
        {
          assert tail[i] == table[i + 1] && tail[j] == table[j + 1];
        }
      }
      MatchingUnique(tail, key, k);
    }
  }

  /** The rows of `table` a book reaches through the join table `links`: one
      inner join per join row that names the book, in join-table order. */
  function Linked<T(==,!new)>(links: seq<Link>, table: seq<T>, key: T -> int, book: int): (r: seq<T>)
    ensures forall x :: x in r <==> x in table && exists l :: l in links && l.book == book && l.target == key(x)
  {
    if links == [] then []
    else
      var here := if links[0].book == book then Matching(table, key, links[0].target) else [];
      var rest := Linked(links[1..], table, key, book);
      assert forall l :: l in links ==> l == links[0] || l in links[1..];
      here + rest
  }

  /** Each row of the table is reached once per join row linking it to the
      book (times the number of its own copies in the table). */
  lemma {:induction false} LinkedCounts<T(!new)>(links: seq<Link>, table: seq<T>, key: T -> int, book: int)
    ensures forall x :: multiset(Linked(links, table, key, book))[x] == multiset(table)[x] * LinksTo(links, book, key(x))
  {
    if links != [] {
      LinkedCounts(links[1..], table, key, book);
      var here := if links[0].book == book then Matching(table, key, links[0].target) else [];
      LinkedStep(links, table, key, book, here, Linked(links[1..], table, key, book));
    }
  }

  /** How many join rows link `book` to the row whose key is `k`. */
  function LinksTo(links: seq<Link>, book: int, k: int): nat {
    if links == [] then 0 else (if links[0] == Link(book, k) then 1 else 0) + LinksTo(links[1..], book, k)
  }

  /** The first join row adds one copy of each row it reaches. */
  lemma LinkedStep<T(!new)>(links: seq<Link>, table: seq<T>, key: T -> int, book: int, here: seq<T>, rest: seq<T>)
    requires links != []
    requires here == if links[0].book == book then Matching(table, key, links[0].target) else []
    requires forall x :: multiset(rest)[x] == multiset(table)[x] * LinksTo(links[1..], book, key(x))
    ensures forall x :: multiset(here + rest)[x] == multiset(table)[x] * LinksTo(links, book, key(x))
  {
    assert multiset(here + rest) == multiset(here) + multiset(rest);
    MatchingCounts(table, key, links[0].target);
    forall x
      ensures multiset(here + rest)[x] == multiset(table)[x] * LinksTo(links, book, key(x))
    {
      var m, c := multiset(table)[x], LinksTo(links[1..], book, key(x));
      var first := if links[0] == Link(book, key(x)) then 1 else 0;
      assert LinksTo(links, book, key(x)) == first + c;
      assert multiset(here)[x] == m * first;
      OneMoreCopy(m, first, c);
    }
  }

  lemma OneMoreCopy(m: nat, first: nat, c: nat)
    ensures m * first + m * c == m * (first + c)
  {
  }

  function CountLinks(links: seq<Link>, book: int): nat {
    if links == [] then 0 else (if links[0].book == book then 1 else 0) + CountLinks(links[1..], book)
  }

  /** In a well-formed catalogue every join row naming a book yields exactly
      one related row: one entry per link. */
  lemma {:induction false} LinkedOnePerLink<T(!new)>(links: seq<Link>, books: seq<Book>, table: seq<T>, key: T -> int, book: int)
    requires UniqueKeys(table, key) && LinksResolve(links, books, table, key)
    ensures |Linked(links, table, key, book)| == CountLinks(links, book)
  {
    if links != [] {
      if links[0].book == book {
        MatchingUnique(table, key, links[0].target);
      }
      LinkedOnePerLink(links[1..], books, table, key, book);
    }
  }

  function AuthorsOf(cat: Catalog, book: int): (r: seq<Author>)
    ensures forall a :: a in r <==> a in cat.authors && exists l :: l in cat.bookAuthors && l.book == book && l.target == a.id
  {
    Linked(cat.bookAuthors, cat.authors, AuthorId, book)
  }

  function BookshelvesOf(cat: Catalog, book: int): (r: seq<Bookshelf>)
    ensures forall s :: s in r <==> s in cat.bookshelves && exists l :: l in cat.bookBookshelves && l.book == book && l.target == s.id
  {
    Linked(cat.bookBookshelves, cat.bookshelves, BookshelfId, book)
  }

  function LanguagesOf(cat: Catalog, book: int): (r: seq<Language>)
    ensures forall g :: g in r <==> g in cat.languages && exists l :: l in cat.bookLanguages && l.book == book && l.target == g.id
  {
    Linked(cat.bookLanguages, cat.languages, LanguageId, book)
  }

  function SubjectsOf(cat: Catalog, book: int): (r: seq<Subject>)
    ensures forall s :: s in r <==> s in cat.subjects && exists l :: l in cat.bookSubjects && l.book == book && l.target == s.id
  {
    Linked(cat.bookSubjects, cat.subjects, SubjectId, book)
  }

  /** The formats whose foreign key names `book`, in table order. */
  function FormatsOf(cat: Catalog, book: int): (r: seq<Format>)
    ensures forall f :: f in r <==> f in cat.formats && f.book == book
  {
    Matching(cat.formats, FormatBook, book)
  }

  /** In a well-formed catalogue a book has one author entry per author join row. */
  lemma AuthorsOnePerLink(cat: Catalog, book: int)
    requires WellFormed(cat)
    ensures |AuthorsOf(cat, book)| == CountLinks(cat.bookAuthors, book)
  {
    LinkedOnePerLink(cat.bookAuthors, cat.books, cat.authors, AuthorId, book);
  }

  /** A book has each format it owns as often as the format table holds it. */
  lemma FormatsCounted(cat: Catalog, book: int)
    ensures forall f :: multiset(FormatsOf(cat, book))[f] == if f.book == book then multiset(cat.formats)[f] else 0
  {
    MatchingCounts(cat.formats, FormatBook, book);
  }

  /** A book's authors: each author once per `BookAuthor` row linking the two
      (times its copies in the author table). */
  lemma AuthorsCounted(cat: Catalog, book: int)
    ensures forall a :: multiset(AuthorsOf(cat, book))[a] == multiset(cat.authors)[a] * LinksTo(cat.bookAuthors, book, a.id)
  {
    LinkedCounts(cat.bookAuthors, cat.authors, AuthorId, book);
  }

  /** A book's bookshelves: each once per `BookBookshelf` row linking the two. */
  lemma BookshelvesCounted(cat: Catalog, book: int)
    ensures forall s :: multiset(BookshelvesOf(cat, book))[s] == multiset(cat.bookshelves)[s] * LinksTo(cat.bookBookshelves, book, s.id)
  {
    LinkedCounts(cat.bookBookshelves, cat.bookshelves, BookshelfId, book);
  }

  /** A book's languages: each once per `BookLanguage` row linking the two. */
  lemma LanguagesCounted(cat: Catalog, book: int)
    ensures forall g :: multiset(LanguagesOf(cat, book))[g] == multiset(cat.languages)[g] * LinksTo(cat.bookLanguages, book, g.id)
  {
    LinkedCounts(cat.bookLanguages, cat.languages, LanguageId, book);
  }

  /** A book's subjects: each once per `BookSubject` row linking the two. */
  lemma SubjectsCounted(cat: Catalog, book: int)
    ensures forall s :: multiset(SubjectsOf(cat, book))[s] == multiset(cat.subjects)[s] * LinksTo(cat.bookSubjects, book, s.id)
  {
    LinkedCounts(cat.bookSubjects, cat.subjects, SubjectId, book);
  }

  /** Under unique keys a row occurs in its table exactly once. */
  lemma {:induction false} UniqueRowOnce<T(!new)>(table: seq<T>, key: T -> int, x: T)
    requires UniqueKeys(table, key) && x in table
    ensures multiset(table)[x] == 1
  {
    var tail := table[1..];
    assert table == [table[0]] + tail;
    assert UniqueKeys(tail, key) by {
      forall i, j | 0 <= i < j < |tail|
        ensures key(tail[i]) != key(tail[j])
      {
        assert tail[i] == table[i + 1] && tail[j] == table[j + 1];
      }
    }
    if table[0] == x {
      assert x !in tail by {
        forall j | 0 <= j < |tail|
          ensures tail[j] != x
        {
          assert key(table[0]) != key(table[j + 1]);
        }
      }
    } else {
      UniqueRowOnce(tail, key, x);
    }
  }

  /** In a well-formed catalogue each author of a book appears once per
      `BookAuthor` row linking the two; duplicate join rows, which the join
      table does not forbid, show the author again. */
  lemma AuthorOncePerLink(cat: Catalog, book: int, a: Author)
    requires WellFormed(cat) && a in cat.authors
    ensures multiset(AuthorsOf(cat, book))[a] == LinksTo(cat.bookAuthors, book, a.id)
  {
    UniqueRowOnce(cat.authors, AuthorId, a);
    AuthorsCounted(cat, book);
  }

  /** Every format is owned by exactly one book of a well-formed catalogue. */
  lemma FormatHasOneOwner(cat: Catalog, f: Format)
    requires WellFormed(cat) && f in cat.formats
    ensures |Matching(cat.books, BookId, f.book)| == 1
  {
    MatchingUnique(cat.books, BookId, f.book);
  }
}

=== FILE: ordering.dfy ===
/** The shape of the listing: each book at most once (`distinct()`), ordered
    by download count, largest first (`order_by('-download_count')`). The
    ordering names no tie-break, and where null counts go is up to the
    database, so null placement is a parameter and ties keep no promised order. */
module Ordering {
  import opened Results
  import opened Models

  /** Each value occurs at most once. */
  predicate AtMostOnce<T(==)>(s: seq<T>) {
    forall x :: x in s ==> multiset(s)[x] <= 1
  }

  /** Keeps the first occurrence of every value, in order. */
  function Distinct<T(==,!new)>(s: seq<T>): (r: seq<T>)
    ensures AtMostOnce(r)
    ensures forall x :: x in r <==> x in s
    ensures |r| <= |s|
  {
    if s == [] then []
    else
      var init := s[..|s| - 1];
      var last := s[|s| - 1];
      var r := Distinct(init);
      assert s == init + [last];
      if last in r then r
      else
        assert multiset(r)[last] == 0;
        r + [last]
  }

  /** Distinct positions hold distinct values. */
  lemma AtMostOnceDistinctPositions<T>(s: seq<T>, i: nat, j: nat)
    requires AtMostOnce(s) && i < j < |s|
    ensures s[i] != s[j]
  {
    var x := s[i];
    assert s == s[..j] + s[j..];
    assert multiset(s)[x] == multiset(s[..j])[x] + multiset(s[j..])[x];
    assert x in s[..j];
    assert s[j] in s[j..];
  }

  datatype NullPlacement = NullsFirst | NullsLast

  /** `x` may be listed before `y` under descending download count. */
  predicate Precedes(x: Option<int>, y: Option<int>, nulls: NullPlacement) {
    match (x, y)
    case (Some(a), Some(b)) => a >= b
    case (None, Some(_)) => nulls == NullsFirst
    case (Some(_), None) => nulls == NullsLast
    case (None, None) => true
  }

  predicate ByDownloads(s: seq<Book>, nulls: NullPlacement) {
    forall i, j :: 0 <= i < j < |s| ==> Precedes(s[i].downloadCount, s[j].downloadCount, nulls)
  }

  /** Places `b` before the first book it may precede. */
  function Insert(b: Book, s: seq<Book>, nulls: NullPlacement): (r: seq<Book>)
    ensures multiset(r) == multiset(s) + multiset{b}
  {
    if s == [] then [b]
    else if Precedes(b.downloadCount, s[0].downloadCount, nulls) then [b] + s
    else
      assert s == [s[0]] + s[1..];
      [s[0]] + Insert(b, s[1..], nulls)
  }

  lemma {:induction false} InsertKeepsOrder(b: Book, s: seq<Book>, nulls: NullPlacement)
    requires ByDownloads(s, nulls)
    ensures ByDownloads(Insert(b, s, nulls), nulls)
  {
    if s != [] && !Precedes(b.downloadCount, s[0].downloadCount, nulls) {
      var rest := Insert(b, s[1..], nulls);
      InsertKeepsOrder(b, s[1..], nulls);
      forall x | x in rest
        ensures Precedes(s[0].downloadCount, x.downloadCount, nulls)
      {
        assert x in multiset(rest);
        if x != b {
          assert x in s[1..];
        }
      }
      var r := [s[0]] + rest;
      forall i, j | 0 <= i < j < |r|
        ensures Precedes(r[i].downloadCount, r[j].downloadCount, nulls)
      {
        assert r[j] == rest[j - 1];
        if i > 0 {
          assert r[i] == rest[i - 1];
        }
      }
    }
  }

  /** Insertion sort on the download count, largest first. */
  function SortByDownloads(s: seq<Book>, nulls: NullPlacement): (r: seq<Book>)
    ensures multiset(r) == multiset(s)
    ensures ByDownloads(r, nulls)
  {
    if s == [] then []
    else
      assert s == [s[0]] + s[1..];
      var sorted := SortByDownloads(s[1..], nulls);
      InsertKeepsOrder(s[0], sorted, nulls);
      Insert(s[0], sorted, nulls)
  }

  /** What the order means for a reader of the listing: counts never increase
      down the list, and books without a count are grouped at the chosen end. */
  lemma ByDownloadsMeaning(s: seq<Book>, nulls: NullPlacement, i: nat, j: nat)
    requires ByDownloads(s, nulls) && i < j < |s|
    ensures s[i].downloadCount.Some? && s[j].downloadCount.Some? ==> s[i].downloadCount.value >= s[j].downloadCount.value
    ensures nulls == NullsLast && s[i].downloadCount.None? ==> s[j].downloadCount.None?
    ensures nulls == NullsFirst && s[j].downloadCount.None? ==> s[i].downloadCount.None?
  {
  }
}

=== FILE: pagination.dfy ===
/** The listing's pages: a fixed number of rows per page, 25 unless the
    request names another size through `page_size`. A page is modelled as a
    plain window onto the ordered rows. */
module Pagination {
  import opened Text
  import opened QueryDicts

  const DefaultPageSize := 25
  const PageSizeKey := "page_size"

  /** The page size a request asks for: the last `page_size` value when the
      integer cast accepts it and it is positive, the default otherwise. A
      value with more digits than the cast accepts makes it raise, and the
      framework then falls back to the default. */
  function PageSize(q: QueryDict): (r: nat)
    ensures r >= 1
    ensures GetList(q, PageSizeKey) == [] ==> r == DefaultPageSize
    ensures SizeGiven(Get(q, PageSizeKey, "")) ==> r == ParseNat(Get(q, PageSizeKey, ""))
    ensures r != DefaultPageSize ==> SizeGiven(Get(q, PageSizeKey, "")) && r == ParseNat(Get(q, PageSizeKey, ""))
  {
    var given := Get(q, PageSizeKey, "");
    if SizeGiven(given) then ParseNat(given) else DefaultPageSize
  }

  /** A `page_size` value the framework honours: all digits, no more of them
      than the integer cast accepts, and not zero. */
  predicate SizeGiven(s: string) {
    IsDigit(s) && |s| <= MaxIntDigits && ParseNat(s) >= 1
  }

  /** Asking for a size by its decimal spelling gets exactly that size, as
      long as the cast accepts that many digits. */
  lemma PageSizeHonoured(q: QueryDict, n: nat)
    requires n >= 1 && |ShowNat(n)| <= MaxIntDigits
    ensures PageSize(q[PageSizeKey := [ShowNat(n)]]) == n
  {
    var q' := q[PageSizeKey := [ShowNat(n)]];
    assert GetList(q', PageSizeKey) == [ShowNat(n)];
    ParseShowNat(n);
  }

  /** A size that is not a positive number the cast accepts (not all digits,
      too many digits, or zero) falls back to the default. */
  lemma PageSizeFallsBack(q: QueryDict, s: string)
    requires !IsDigit(s) || |s| > MaxIntDigits || ParseNat(s) == 0
    ensures PageSize(q[PageSizeKey := [s]]) == DefaultPageSize
  {
    var q' := q[PageSizeKey := [s]];
    assert GetList(q', PageSizeKey) == [s];
  }

  /** The offset of the first row of page `number` (counting from 1). */
  function PageStart(number: nat, size: nat): nat
    requires number >= 1
  {
    (number - 1) * size
  }

  /** Page `number`: at most `size` rows, the ones from the page's offset
      on; a page past the end is empty. */
  function Page<T>(rows: seq<T>, number: nat, size: nat): (r: seq<T>)
    requires number >= 1
    ensures |r| <= size
    ensures forall i :: 0 <= i < |r| ==> PageStart(number, size) + i < |rows| && r[i] == rows[PageStart(number, size) + i]
    ensures PageStart(number, size) + size <= |rows| ==> |r| == size
    ensures PageStart(number, size) + size > |rows| ==> |r| == if PageStart(number, size) < |rows| then |rows| - PageStart(number, size) else 0
  {
    var start := PageStart(number, size);
    if start >= |rows| then []
    else if start + size <= |rows| then rows[start .. start + size]
    else rows[start ..]
  }

  /** Pages 1 to `n`, one after the other. */
  function Pages<T>(rows: seq<T>, n: nat, size: nat): seq<T>
  {
    if n == 0 then [] else Pages(rows, n - 1, size) + Page(rows, n, size)
  }

  /** Consecutive pages neither overlap nor leave gaps: together, pages 1 to
      `n` are exactly the rows before page `n + 1` starts (or all of them). */
  lemma {:induction false} PagesPartition<T>(rows: seq<T>, n: nat, size: nat)
    ensures Pages(rows, n, size) == rows[..Min(PageStart(n + 1, size), |rows|)]
  {
    if n > 0 {
      PagesPartition(rows, n - 1, size);
      PageContinues(rows, n, size);
    }
  }

  /** Page `n` picks up exactly where the rows before it stop. */
  lemma PageContinues<T>(rows: seq<T>, n: nat, size: nat)
    requires n >= 1
    ensures rows[..Min(PageStart(n, size), |rows|)] + Page(rows, n, size) == rows[..Min(PageStart(n + 1, size), |rows|)]
  {
    var prev, cut := Min(PageStart(n, size), |rows|), Min(PageStart(n + 1, size), |rows|);
    NextPageStart(n, size);
    assert Page(rows, n, size) == rows[prev..cut];
    assert rows[..prev] + rows[prev..cut] == rows[..cut];
  }

  /** Page `n + 1` starts `size` rows after page `n`. */
  lemma NextPageStart(n: nat, size: nat)
    requires n >= 1
    ensures PageStart(n + 1, size) == PageStart(n, size) + size
  {
    assert n * size == (n - 1) * size + size;
  }

  /** Every row lies on exactly one page. */
  lemma RowOnItsPage<T>(rows: seq<T>, size: nat, k: nat)
    requires size >= 1
    requires k < |rows|
    ensures k % size < |Page(rows, k / size + 1, size)| && Page(rows, k / size + 1, size)[k % size] == rows[k]
  {
    var number := k / size + 1;
    assert PageStart(number, size) == (k / size) * size;
    assert PageStart(number, size) + k % size == k;
  }

  function Min(a: int, b: int): int {
    if a <= b then a else b
  }
}

=== FILE: query_dicts.dfy ===
/** The multi-valued mapping of query-string parameters a request carries:
    each name with its values in order of appearance. */
module QueryDicts {

  type QueryDict = map<string, seq<string>>

  /** `getlist(key)`: every value of the parameter, none when it is absent. */
  function GetList(q: QueryDict, key: string): seq<string> {
    if key in q then q[key] else []
  }

  /** `get(key, default)`: the LAST value of the parameter, or `default`
      when the parameter has no value. */
  function Get(q: QueryDict, key: string, default: string): (r: string)
    ensures GetList(q, key) == [] ==> r == default
    ensures GetList(q, key) != [] ==> r in GetList(q, key)
  {
    var values := GetList(q, key);
    if values == [] then default else values[|values| - 1]
  }

  /** Whatever came before, `get` reads the value given last. */
  lemma GetTakesLast(q: QueryDict, key: string, earlier: seq<string>, v: string, default: string)
    ensures Get(q[key := earlier + [v]], key, default) == v
  {
    var values := earlier + [v];
    assert GetList(q[key := values], key) == values;
    assert values[|values| - 1] == v;
  }
}

=== FILE: results.dfy ===
/** Optional values and failure-compatible results, used for nullable columns
    and for the request-level error the listing endpoint may raise. */
module Results {

  /** A nullable value: a column declared with null=True, or a missing result. */
  datatype Option<+T> = None | Some(value: T)

  /** Either a value or an error; usable with `:-`. */
  datatype Result<+T, +E> = Success(value: T) | Failure(error: E) {

    predicate IsFailure() {
      Failure?
    }

    function PropagateFailure<U>(): Result<U, E>
      requires Failure?
    {
      Failure(error)
    }

    function Extract(): T
      requires Success?
    {
      value
    }
  }
}

=== FILE: scenarios.dfy ===
/** Worked requests against a two-language catalogue: what the view answers
    for the edge cases of its query string. */
module Scenarios {
  import opened Results
  import opened Text
  import opened QueryDicts
  import opened Models
  import opened Filters
  import opened Ordering
  import opened Facets
  import opened Pagination
  import opened Views

  const English := Language(1, "en")
  const French := Language(2, "fr")
  const Frankenstein := Book(1, Some(100), 84, "Text", Some("Frankenstein"))

  /** One English book; French is known but has no books. */
  const Shelf := Catalog([Frankenstein], [], [], [English, French], [], [], [], [], [Link(1, 1)], [])

  lemma LanguageTokensOfOneCode(code: string)
    requires |code| == 2 && !IsSpace(code[0]) && !IsSpace(code[1]) && !IsUpper(code[0]) && !IsUpper(code[1])
    requires code[0] != ',' && code[1] != ','
    ensures LanguageTokens(code, []) == [code]
  {
    assert code + "," + Join([], ',') == code + [','] + [];
    SplitPrefix(code, [], ',');
    var raw := RawLanguageTokens(code, []);
    assert raw == [code, []];
    StripKeepsTrimmed(code);
    assert Lower(code) == code;
    assert raw[1..] == [[]];
    assert NormalizeLanguages([[]]) == [];
  }

  /** A request carrying only the singular `language` parameter: its last
      value is the one read. */
  lemma ReadLanguageOnly(values: seq<string>)
    requires values != []
    ensures ReadFacets(map[LanguageKey := values]) == RawFacets([], values[|values| - 1], [], [], [], [], [])
  {
    ParameterNamesDistinct();
  }

  /** A request carrying one two-letter code in `language` validates to that
      code and nothing else. */
  lemma ValidLanguageOnly(code: string)
    requires |code| == 2 && !IsSpace(code[0]) && !IsSpace(code[1]) && !IsUpper(code[0]) && !IsUpper(code[1])
    requires code[0] != ',' && code[1] != ','
    ensures Validate(ReadFacets(map[LanguageKey := [code]])) == Success(FacetValues([], [code], [], [], [], []))
  {
    LanguageTokensOfOneCode(code);
    ReadLanguageOnly([code]);
  }

  /** The English book is kept by a language facet exactly when it names
      `en`. */
  lemma EnglishBookKept(codes: seq<string>)
    requires codes != []
    ensures Keeps(Shelf, FacetValues([], codes, [], [], [], []), Frankenstein) <==> "en" in codes
  {
    assert English in LanguagesOf(Shelf, Frankenstein.id) by {
      assert Link(1, 1) in Shelf.bookLanguages;
    }
    forall g | g in LanguagesOf(Shelf, Frankenstein.id)
      ensures g == English
    {
    }
  }

  /** `language=en` lists the English book. */
  lemma EnglishListsEnglishBook(nulls: NullPlacement)
    ensures Compile(map[LanguageKey := ["en"]], Shelf, nulls).Success?
    ensures Frankenstein in Compile(map[LanguageKey := ["en"]], Shelf, nulls).value
  {
    ValidLanguageOnly("en");
    EnglishBookKept(["en"]);
  }

  /** `language=en&language=fr` is read as `language=fr` alone, so the
      English book is no longer listed. */
  lemma RepeatedLanguageKeepsOnlyLast(nulls: NullPlacement)
    ensures Compile(map[LanguageKey := ["en", "fr"]], Shelf, nulls).Success?
    ensures Frankenstein !in Compile(map[LanguageKey := ["en", "fr"]], Shelf, nulls).value
  {
    FrenchOnlyDropsEnglishBook(nulls);
    LastLanguageDecides(nulls);
  }

  lemma FrenchOnlyDropsEnglishBook(nulls: NullPlacement)
    ensures Compile(map[LanguageKey := ["fr"]], Shelf, nulls).Success?
    ensures Frankenstein !in Compile(map[LanguageKey := ["fr"]], Shelf, nulls).value
  {
    ValidLanguageOnly("fr");
    EnglishBookKept(["fr"]);
  }

  lemma LastLanguageDecides(nulls: NullPlacement)
    ensures Compile(map[LanguageKey := ["en", "fr"]], Shelf, nulls) == Compile(map[LanguageKey := ["fr"]], Shelf, nulls)
  {
    ReadLanguageOnly(["en", "fr"]);
    ReadLanguageOnly(["fr"]);
  }

  /** `gutenberg_id=11,` leaves an empty token after the comma, which is not
      a number: the request is refused with the `gutenberg_id` error. */
  lemma StrayCommaRejected(cat: Catalog, nulls: NullPlacement)
    ensures Compile(map[GutenbergIdKey := ["11,"]], cat, nulls) == Failure(Invalid(GutenbergIdKey, GutenbergIdMessage))
  {
    var values := ["11,"];
    assert Join(values, ',') == "11" + [','] + [];
    SplitPrefix("11", [], ',');
    assert IdTokens(values) == [Strip("11"), Strip([])];
    assert [] in IdTokens(values);
    assert GetList(map[GutenbergIdKey := values], GutenbergIdKey) == values;
  }

  /** `gutenberg_id=11,76` asks for two books, 11 and 76, in that order. */
  lemma CommaJoinedIds()
    ensures ParseIds(["11,76"]) == Success([11, 76])
  {
    CommaJoinedIdTokens();
    CastElevenSeventySix();
    assert forall t :: t in IdTokens(["11,76"]) ==> IsDigit(t);
  }

  lemma CastElevenSeventySix()
    ensures CastIds(["11", "76"]) == Success([11, 76])
  {
    assert ParseNat("11") == 11 by {
      assert "11"[..1] == "1";
    }
    assert ParseNat("76") == 76 by {
      assert "76"[..1] == "7";
    }
    var tokens := ["11", "76"];
    assert IsDigit(tokens[0]) && IsDigit(tokens[1]);
    assert forall t :: t in tokens ==> |t| <= MaxIntDigits;
    var cast := CastIds(tokens);
    assert |cast.value| == 2 && cast.value[0] == 11 && cast.value[1] == 76;
    assert cast.value == [11, 76];
  }

  lemma CommaJoinedIdTokens()
    ensures IdTokens(["11,76"]) == ["11", "76"]
  {
    assert Join(["11,76"], ',') == "11" + [','] + "76";
    SplitPrefix("11", "76", ',');
    SplitNoSep("76", ',');
    StripKeepsTrimmed("11");
    StripKeepsTrimmed("76");
  }

  /** A `gutenberg_id` of 4301 digits passes the digit check but not the
      integer cast, so the request fails with the cast error naming it. */
  lemma OverlongIdRejected(cat: Catalog, nulls: NullPlacement)
    ensures Compile(map[GutenbergIdKey := [Ones(MaxIntDigits + 1)]], cat, nulls)
         == Failure(Failed(CastMessage(Ones(MaxIntDigits + 1))))
  {
    var t := Ones(MaxIntDigits + 1);
    var q := map[GutenbergIdKey := [t]];
    assert GetList(q, GutenbergIdKey) == [t];
    OnlyOneIdToken(t);
    assert IsDigit(t) && !IdsFit([t]);
    var tokens := IdTokens([t]);
    assert |tokens| == 1 && tokens[0] == t;
    assert forall k :: FirstTooLong(tokens, k) ==> k == 0;
  }

  /** The string of `n` ones. */
  function Ones(n: nat): (s: string)
    ensures |s| == n && forall i :: 0 <= i < n ==> s[i] == '1'
  {
    seq(n, _ => '1')
  }

  /** A comma-free value without surrounding blanks is its own only token. */
  lemma OnlyOneIdToken(t: string)
    requires t != [] && !IsSpace(t[0]) && !IsSpace(t[|t| - 1]) && forall i :: 0 <= i < |t| ==> t[i] != ','
    ensures IdTokens([t]) == [t]
  {
    assert Join([t], ',') == t;
    SplitNoSep(t, ',');
    StripKeepsTrimmed(t);
  }

  /** `author=123` is refused as a numeric identifier. */
  lemma NumericAuthorRejected(cat: Catalog, nulls: NullPlacement)
    ensures Compile(map[AuthorKey := ["123"]], cat, nulls) == Failure(Invalid(AuthorKey, AuthorMessage))
  {
    ParameterNamesDistinct();
    var q := map[AuthorKey := ["123"]];
    assert GetList(q, GutenbergIdKey) == [];
    assert GetList(q, AuthorKey) == ["123"];
    assert IsDigit("123");
  }

  /** `author= 123` (with a leading blank) is not all digits, so it is
      accepted and searched for as a name fragment. */
  lemma PaddedAuthorAccepted(cat: Catalog, nulls: NullPlacement)
    ensures Compile(map[AuthorKey := [" 123"]], cat, nulls).Success?
    ensures Validate(ReadFacets(map[AuthorKey := [" 123"]])).value.authors == [" 123"]
  {
    ParameterNamesDistinct();
    var q := map[AuthorKey := [" 123"]];
    assert GetList(q, GutenbergIdKey) == [];
    assert GetList(q, AuthorKey) == [" 123"];
    PaddedIsNotDigit(" 123");
  }

  /** With both `gutenberg_id` and `author` invalid, the `gutenberg_id`
      error is the one reported. */
  lemma GutenbergIdErrorWins(cat: Catalog, nulls: NullPlacement)
    ensures Compile(map[GutenbergIdKey := ["x"], AuthorKey := ["123"]], cat, nulls) == Failure(Invalid(GutenbergIdKey, GutenbergIdMessage))
  {
    ParameterNamesDistinct();
    var q := map[GutenbergIdKey := ["x"], AuthorKey := ["123"]];
    assert GetList(q, GutenbergIdKey) == ["x"];
    SplitNoSep("x", ',');
    StripKeepsTrimmed("x");
    assert IdTokens(["x"]) == ["x"];
    assert !IsDigit("x");
  }

  /** `title=<a book's own title>` lists that book, whatever the case in
      which the title is spelled. */
  lemma FoundByOwnTitle(cat: Catalog, nulls: NullPlacement, b: Book, spelled: string)
    requires b in cat.books && b.title.Some? && Lower(spelled) == Lower(b.title.value)
    ensures Compile(map[TitleKey := [spelled]], cat, nulls).Success?
    ensures b in Compile(map[TitleKey := [spelled]], cat, nulls).value
  {
    TitleOnly(spelled);
    IContainsSelf(b.title.value, spelled);
    assert Titled(b, [spelled]);
  }

  /** A request carrying one `title` value validates to that title and
      nothing else. */
  lemma TitleOnly(title: string)
    ensures Validate(ReadFacets(map[TitleKey := [title]])) == Success(FacetValues([], [], [], [], [], [title]))
  {
    ParameterNamesDistinct();
    assert ReadFacets(map[TitleKey := [title]]) == RawFacets([], "", [], [], [], [], [title]);
    assert "" + "," + Join([], ',') == [] + [','] + [];
    SplitPrefix([], [], ',');
    assert RawLanguageTokens("", []) == [[], []];
    assert NormalizeLanguages([[]]) == [];
    assert LanguageTokens("", []) == [];
  }

  /** `page=2&page_size=10` shows the 11th to the 20th listed book, whatever
      the facets, once at least 20 books are listed. */
  lemma SecondPageOfTen(q: QueryDict, cat: Catalog, nulls: NullPlacement)
    requires GetList(q, PageSizeKey) == ["10"]
    requires Compile(q, cat, nulls).Success? && |Compile(q, cat, nulls).value| >= 20
    ensures ListBooks(q, cat, nulls, 2).Success?
    ensures ListBooks(q, cat, nulls, 2).value == SerializeAll(cat, Compile(q, cat, nulls).value[10..20])
  {
    PageSizeTen(q);
    var listed := Compile(q, cat, nulls).value;
    assert Page(listed, 2, 10) == listed[10..20];
    assert ListBooks(q, cat, nulls, 2) == Success(SerializeAll(cat, Page(listed, 2, PageSize(q))));
  }

  lemma PageSizeTen(q: QueryDict)
    requires GetList(q, PageSizeKey) == ["10"]
    ensures PageSize(q) == 10
  {
    assert ParseNat("10") == 10 by {
      assert "10"[..1] == "1";
    }
  }
}

=== FILE: serializers.dfy ===
/** The shape of one listed book: its title, its own authors, languages,
    subjects and bookshelves, and the download links of the formats it owns.
    The book's primary key, catalogue number, download count and media type
    are not part of it. */
module Serializers {
  import opened Results
  import opened Models

  datatype AuthorOut = AuthorOut(name: string, birthYear: Option<int>, deathYear: Option<int>)
  datatype FormatOut = FormatOut(mimeType: string, url: string)
  datatype LanguageOut = LanguageOut(code: string)
  datatype SubjectOut = SubjectOut(name: string)
  datatype BookshelfOut = BookshelfOut(name: string)

  datatype BookOut = BookOut(
    title: Option<string>,
    authors: seq<AuthorOut>,
    languages: seq<LanguageOut>,
    subjects: seq<SubjectOut>,
    bookshelves: seq<BookshelfOut>,
    downloadLinks: seq<FormatOut>)

  function AuthorsOut(authors: seq<Author>): (r: seq<AuthorOut>)
    ensures |r| == |authors|
    ensures forall i :: 0 <= i < |authors| ==> r[i] == AuthorOut(authors[i].name, authors[i].birthYear, authors[i].deathYear)
  {
    if authors == [] then [] else [AuthorOut(authors[0].name, authors[0].birthYear, authors[0].deathYear)] + AuthorsOut(authors[1..])
  }

  function LanguagesOut(languages: seq<Language>): (r: seq<LanguageOut>)
    ensures |r| == |languages|
    ensures forall i :: 0 <= i < |languages| ==> r[i] == LanguageOut(languages[i].code)
  {
    if languages == [] then [] else [LanguageOut(languages[0].code)] + LanguagesOut(languages[1..])
  }

  function SubjectsOut(subjects: seq<Subject>): (r: seq<SubjectOut>)
    ensures |r| == |subjects|
    ensures forall i :: 0 <= i < |subjects| ==> r[i] == SubjectOut(subjects[i].name)
  {
    if subjects == [] then [] else [SubjectOut(subjects[0].name)] + SubjectsOut(subjects[1..])
  }

  function BookshelvesOut(shelves: seq<Bookshelf>): (r: seq<BookshelfOut>)
    ensures |r| == |shelves|
    ensures forall i :: 0 <= i < |shelves| ==> r[i] == BookshelfOut(shelves[i].name)
  {
    if shelves == [] then [] else [BookshelfOut(shelves[0].name)] + BookshelvesOut(shelves[1..])
  }

  function FormatsOut(formats: seq<Format>): (r: seq<FormatOut>)
    ensures |r| == |formats|
    ensures forall i :: 0 <= i < |formats| ==> r[i] == FormatOut(formats[i].mimeType, formats[i].url)
  {
    if formats == [] then [] else [FormatOut(formats[0].mimeType, formats[0].url)] + FormatsOut(formats[1..])
  }

  /** `get_download_links`: the formats filtered by this book, each as its
      MIME type and URL. A link is listed exactly when some format owned by
      the book carries it; nothing comes from another book's formats. */
  function DownloadLinks(cat: Catalog, b: Book): (r: seq<FormatOut>)
    ensures |r| == |FormatsOf(cat, b.id)|
    ensures forall i :: 0 <= i < |r| ==> r[i] == FormatOut(FormatsOf(cat, b.id)[i].mimeType, FormatsOf(cat, b.id)[i].url)
    ensures forall o :: o in r <==> exists f :: f in cat.formats && f.book == b.id && o == FormatOut(f.mimeType, f.url)
  {
    var owned := FormatsOf(cat, b.id);
    var r := FormatsOut(owned);
    assert forall o :: o in r ==> exists f :: f in owned && o == FormatOut(f.mimeType, f.url) by {
      forall o | o in r
        ensures exists f :: f in owned && o == FormatOut(f.mimeType, f.url)
      {
        var i :| 0 <= i < |r| && r[i] == o;
        assert owned[i] in owned;
      }
    }
    assert forall f :: f in owned ==> FormatOut(f.mimeType, f.url) in r by {
      forall f | f in owned
        ensures FormatOut(f.mimeType, f.url) in r
      {
        var i :| 0 <= i < |owned| && owned[i] == f;
        assert r[i] == FormatOut(f.mimeType, f.url);
      }
    }
    r
  }

  /** The serialised book: its title, and for each relation one entry per
      row linked to it, in the order of the related rows. */
  function SerializeBook(cat: Catalog, b: Book): (r: BookOut)
    ensures r.title == b.title
    ensures |r.authors| == |AuthorsOf(cat, b.id)|
    ensures forall i :: 0 <= i < |r.authors| ==>
      r.authors[i] == AuthorOut(AuthorsOf(cat, b.id)[i].name, AuthorsOf(cat, b.id)[i].birthYear, AuthorsOf(cat, b.id)[i].deathYear)
    ensures forall o :: o in r.authors <==>
      exists a :: a in cat.authors && Link(b.id, a.id) in cat.bookAuthors && o == AuthorOut(a.name, a.birthYear, a.deathYear)
    ensures |r.languages| == |LanguagesOf(cat, b.id)|
    ensures forall i :: 0 <= i < |r.languages| ==> r.languages[i] == LanguageOut(LanguagesOf(cat, b.id)[i].code)
    ensures forall o :: o in r.languages <==>
      exists g :: g in cat.languages && Link(b.id, g.id) in cat.bookLanguages && o == LanguageOut(g.code)
    ensures |r.subjects| == |SubjectsOf(cat, b.id)|
    ensures forall i :: 0 <= i < |r.subjects| ==> r.subjects[i] == SubjectOut(SubjectsOf(cat, b.id)[i].name)
    ensures forall o :: o in r.subjects <==>
      exists s :: s in cat.subjects && Link(b.id, s.id) in cat.bookSubjects && o == SubjectOut(s.name)
    ensures |r.bookshelves| == |BookshelvesOf(cat, b.id)|
    ensures forall i :: 0 <= i < |r.bookshelves| ==> r.bookshelves[i] == BookshelfOut(BookshelvesOf(cat, b.id)[i].name)
    ensures forall o :: o in r.bookshelves <==>
      exists s :: s in cat.bookshelves && Link(b.id, s.id) in cat.bookBookshelves && o == BookshelfOut(s.name)
    ensures |r.downloadLinks| == |FormatsOf(cat, b.id)|
    ensures forall i :: 0 <= i < |r.downloadLinks| ==>
      r.downloadLinks[i] == FormatOut(FormatsOf(cat, b.id)[i].mimeType, FormatsOf(cat, b.id)[i].url)
    ensures forall o :: o in r.downloadLinks <==>
      exists f :: f in cat.formats && f.book == b.id && o == FormatOut(f.mimeType, f.url)
  {
    AuthorsShown(cat, b.id);
    LanguagesShown(cat, b.id);
    SubjectsShown(cat, b.id);
    BookshelvesShown(cat, b.id);
    BookOut(
      b.title,
      AuthorsOut(AuthorsOf(cat, b.id)),
      LanguagesOut(LanguagesOf(cat, b.id)),
      SubjectsOut(SubjectsOf(cat, b.id)),
      BookshelvesOut(BookshelvesOf(cat, b.id)),
      DownloadLinks(cat, b))
  }

  lemma AuthorsShown(cat: Catalog, book: int)
    ensures forall o :: o in AuthorsOut(AuthorsOf(cat, book)) <==>
      exists a :: a in cat.authors && Link(book, a.id) in cat.bookAuthors && o == AuthorOut(a.name, a.birthYear, a.deathYear)
  {
    var own := AuthorsOf(cat, book);
    var out := AuthorsOut(own);
    forall o | o in out
      ensures exists a :: a in own && o == AuthorOut(a.name, a.birthYear, a.deathYear)
    {
      var i :| 0 <= i < |out| && out[i] == o;
      assert own[i] in own;
    }
    forall a | a in cat.authors && Link(book, a.id) in cat.bookAuthors
      ensures AuthorOut(a.name, a.birthYear, a.deathYear) in out
    {
      assert a in own;
      var i :| 0 <= i < |own| && own[i] == a;
      assert out[i] == AuthorOut(a.name, a.birthYear, a.deathYear);
    }
  }

  lemma LanguagesShown(cat: Catalog, book: int)
    ensures forall o :: o in LanguagesOut(LanguagesOf(cat, book)) <==>
      exists g :: g in cat.languages && Link(book, g.id) in cat.bookLanguages && o == LanguageOut(g.code)
  {
    var own := LanguagesOf(cat, book);
    var out := LanguagesOut(own);
    forall o | o in out
      ensures exists g :: g in own && o == LanguageOut(g.code)
    {
      var i :| 0 <= i < |out| && out[i] == o;
      assert own[i] in own;
    }
    forall g | g in cat.languages && Link(book, g.id) in cat.bookLanguages
      ensures LanguageOut(g.code) in out
    {
      assert g in own;
      var i :| 0 <= i < |own| && own[i] == g;
      assert out[i] == LanguageOut(g.code);
    }
  }

  lemma SubjectsShown(cat: Catalog, book: int)
    ensures forall o :: o in SubjectsOut(SubjectsOf(cat, book)) <==>
      exists s :: s in cat.subjects && Link(book, s.id) in cat.bookSubjects && o == SubjectOut(s.name)
  {
    var own := SubjectsOf(cat, book);
    var out := SubjectsOut(own);
    forall o | o in out
      ensures exists s :: s in own && o == SubjectOut(s.name)
    {
      var i :| 0 <= i < |out| && out[i] == o;
      assert own[i] in own;
    }
    forall s | s in cat.subjects && Link(book, s.id) in cat.bookSubjects
      ensures SubjectOut(s.name) in out
    {
      assert s in own;
      var i :| 0 <= i < |own| && own[i] == s;
      assert out[i] == SubjectOut(s.name);
    }
  }

  lemma BookshelvesShown(cat: Catalog, book: int)
    ensures forall o :: o in BookshelvesOut(BookshelvesOf(cat, book)) <==>
      exists s :: s in cat.bookshelves && Link(book, s.id) in cat.bookBookshelves && o == BookshelfOut(s.name)
  {
    var own := BookshelvesOf(cat, book);
    var out := BookshelvesOut(own);
    forall o | o in out
      ensures exists s :: s in own && o == BookshelfOut(s.name)
    {
      var i :| 0 <= i < |out| && out[i] == o;
      assert own[i] in own;
    }
    forall s | s in cat.bookshelves && Link(book, s.id) in cat.bookBookshelves
      ensures BookshelfOut(s.name) in out
    {
      assert s in own;
      var i :| 0 <= i < |own| && own[i] == s;
      assert out[i] == BookshelfOut(s.name);
    }
  }

  /** The output depends on the book only through its primary key and its
      title: its catalogue number, download count and media type are not
      exposed. */
  lemma HidesBookColumns(cat: Catalog, b: Book, downloads: Option<int>, gutenbergId: int, mediaType: string)
    ensures SerializeBook(cat, b) == SerializeBook(cat, b.(downloadCount := downloads, gutenbergId := gutenbergId, mediaType := mediaType))
  {
  }

  /** Formats added for other books never change this book's links. */
  lemma LinksIgnoreOtherBooks(cat: Catalog, b: Book, extra: seq<Format>)
    requires forall f :: f in extra ==> f.book != b.id
    ensures DownloadLinks(cat.(formats := cat.formats + extra), b) == DownloadLinks(cat, b)
  {
    MatchingAppend(cat.formats, extra, FormatBook, b.id);
    MatchingAbsent(extra, FormatBook, b.id);
  }
}

=== FILE: text.dfy ===
/** The Python string operations the facet parser relies on, with ASCII
    semantics: `str.strip()`, `str.lower()`, `str.isdigit()`, `str.split(',')`,
    `','.join(...)`, the decimal cast `int(...)` and Django's `icontains`
    lookup (case-insensitive substring test). */
module Text {

  /** `str.isspace()` on one ASCII character: tab, newline, vertical tab,
      form feed, carriage return, the four information separators and space. */
  predicate IsSpace(c: char) {
    (9 <= c as int <= 13) || (28 <= c as int <= 32)
  }

  predicate AllSpace(s: string) {
    forall i :: 0 <= i < |s| ==> IsSpace(s[i])
  }

  /** The first index at or after `i` that does not hold whitespace. */
  function SkipSpaces(s: string, i: nat): (j: nat)
    requires i <= |s|
    ensures i <= j <= |s|
    ensures forall k :: i <= k < j ==> IsSpace(s[k])
    ensures j == |s| || !IsSpace(s[j])
    decreases |s| - i
  {
    if i < |s| && IsSpace(s[i]) then SkipSpaces(s, i + 1) else i
  }

  /** The end of `s[lo..j]` once its trailing whitespace is dropped. */
  function SkipSpacesBack(s: string, lo: nat, j: nat): (e: nat)
    requires lo <= j <= |s|
    ensures lo <= e <= j
    ensures forall k :: e <= k < j ==> IsSpace(s[k])
    ensures e == lo || !IsSpace(s[e - 1])
  {
    if j > lo && IsSpace(s[j - 1]) then SkipSpacesBack(s, lo, j - 1) else j
  }

  /** Where the text kept by `str.strip()` begins. */
  function StripStart(s: string): (a: nat)
    ensures a <= |s|
  {
    SkipSpaces(s, 0)
  }

  /** `str.strip()`: the infix of `s` between its leading and its trailing
      whitespace; empty exactly when `s` is blank. */
  function Strip(s: string): (r: string)
    ensures r == [] <==> AllSpace(s)
    ensures r != [] ==> !IsSpace(r[0]) && !IsSpace(r[|r| - 1])
    ensures StripStart(s) + |r| <= |s| && r == s[StripStart(s)..StripStart(s) + |r|]
    ensures forall k :: 0 <= k < StripStart(s) ==> IsSpace(s[k])
    ensures forall k :: StripStart(s) + |r| <= k < |s| ==> IsSpace(s[k])
  {
    var a := SkipSpaces(s, 0);
    var e := SkipSpacesBack(s, a, |s|);
    assert e > a ==> s[a] == s[a..e][0];
    s[a..e]
  }

  lemma StripKeepsTrimmed(s: string)
    requires s == [] || (!IsSpace(s[0]) && !IsSpace(s[|s| - 1]))
    ensures Strip(s) == s
  {
  }

  predicate IsUpper(c: char) {
    'A' <= c <= 'Z'
  }

  /** ASCII `str.lower()` on one character. */
  function LowerChar(c: char): (r: char)
    ensures !IsUpper(r)
    ensures IsSpace(r) <==> IsSpace(c)
    ensures r != c ==> IsUpper(c) && r as int == c as int + 32
  {
    if IsUpper(c) then (c as int + 32) as char else c
  }

  /** ASCII `str.lower()`: every upper-case letter mapped to its lower-case
      partner, every other character kept. */
  function Lower(s: string): (r: string)
    ensures |r| == |s|
    ensures forall i :: 0 <= i < |s| ==> r[i] == LowerChar(s[i])
  {
    if s == [] then [] else [LowerChar(s[0])] + Lower(s[1..])
  }

  /** Lower-casing twice is lower-casing once. */
  lemma LowerIdempotent(s: string)
    ensures Lower(Lower(s)) == Lower(s)
  {
  }

  predicate IsDigitChar(c: char) {
    '0' <= c <= '9'
  }

  predicate AllDigits(s: string) {
    forall i :: 0 <= i < |s| ==> IsDigitChar(s[i])
  }

  /** `str.isdigit()` over ASCII: non-empty and made only of decimal digits. */
  predicate IsDigit(s: string) {
    |s| > 0 && AllDigits(s)
  }

  /** A value padded with whitespace is never all digits. */
  lemma PaddedIsNotDigit(s: string)
    requires |s| > 0 && (IsSpace(s[0]) || IsSpace(s[|s| - 1]))
    ensures !IsDigit(s)
  {
  }

  function DigitValue(c: char): (d: nat)
    requires IsDigitChar(c)
    ensures d < 10
  {
    c as int - '0' as int
  }

  function DigitChar(d: nat): (c: char)
    requires d < 10
    ensures IsDigitChar(c) && DigitValue(c) == d
  {
    ('0' as int + d) as char
  }

  /** The decimal value of a string of digits (leading zeros allowed), as the
      integer column cast performs it. */
  function ParseNat(s: string): nat
    requires AllDigits(s)
  {
    if s == [] then 0 else 10 * ParseNat(s[..|s| - 1]) + DigitValue(s[|s| - 1])
  }

  /** The most decimal digits Python's `int()` converts: a longer string makes
      it raise `ValueError`. This is the default `int_max_str_digits` of
      Python 3.11 and later, also in the security releases of 3.7 to 3.10. */
  const MaxIntDigits := 4300

  /** The canonical decimal rendering of a natural number. */
  function ShowNat(n: nat): (s: string)
    ensures IsDigit(s)
    ensures s[0] == '0' ==> n == 0 && |s| == 1
  {
    if n < 10 then [DigitChar(n)] else ShowNat(n / 10) + [DigitChar(n % 10)]
  }

  /** Parsing undoes rendering. */
  lemma {:induction false} ParseShowNat(n: nat)
    ensures ParseNat(ShowNat(n)) == n
  {
    if n >= 10 {
      var s := ShowNat(n);
      assert s[..|s| - 1] == ShowNat(n / 10);
      ParseShowNat(n / 10);
    }
  }

  /** Leading zeros do not change the parsed value, so "007" selects id 7. */
  lemma {:induction false} ParseNatLeadingZero(s: string)
    requires AllDigits(s)
    ensures ParseNat("0" + s) == ParseNat(s)
  {
    if s != [] {
      var t := "0" + s;
      assert t[..|t| - 1] == "0" + s[..|s| - 1];
      ParseNatLeadingZero(s[..|s| - 1]);
    }
  }

  /** `sep.join(parts)`. */
  function Join(parts: seq<string>, sep: char): string
  {
    if |parts| == 0 then []
    else if |parts| == 1 then parts[0]
    else parts[0] + [sep] + Join(parts[1..], sep)
  }

  lemma JoinConsChar(c: char, x: string, xs: seq<string>, sep: char)
    ensures Join([[c] + x] + xs, sep) == [c] + Join([x] + xs, sep)
  {
    if |xs| > 0 {
      assert ([[c] + x] + xs)[1..] == xs;
      assert ([x] + xs)[1..] == xs;
    }
  }

  lemma JoinConsEmpty(xs: seq<string>, sep: char)
    requires |xs| > 0
    ensures Join([[]] + xs, sep) == [sep] + Join(xs, sep)
  {
    assert ([[]] + xs)[1..] == xs;
  }

  /** `s.split(sep)`: the maximal runs between separators, always at least
      one (the empty string splits into one empty part). */
  function Split(s: string, sep: char): (parts: seq<string>)
    ensures |parts| >= 1
    ensures forall p :: p in parts ==> sep !in p
    ensures Join(parts, sep) == s
  {
    if s == [] then [[]]
    else
      var rest := Split(s[1..], sep);
      if s[0] == sep then
        JoinConsEmpty(rest, sep);
        [[]] + rest
      else
        JoinConsChar(s[0], rest[0], rest[1..], sep);
        assert [rest[0]] + rest[1..] == rest;
        [[s[0]] + rest[0]] + rest[1..]
  }

  /** Joining two non-empty lists puts one separator between their joins. */
  lemma {:induction false} JoinAppend(xs: seq<string>, ys: seq<string>, sep: char)
    requires |xs| > 0 && |ys| > 0
    ensures Join(xs + ys, sep) == Join(xs, sep) + [sep] + Join(ys, sep)
  {
    if |xs| > 1 {
      assert (xs + ys)[1..] == xs[1..] + ys;
      JoinAppend(xs[1..], ys, sep);
    } else {
      assert (xs + ys)[1..] == ys;
    }
  }

  /** Joining is blind to where one part ends and the next begins: a part
      holding a separator joins like the two parts around it. */
  lemma JoinSplice(pre: seq<string>, a: string, b: string, post: seq<string>, sep: char)
    ensures Join(pre + [a + [sep] + b] + post, sep) == Join(pre + [a, b] + post, sep)
  {
    var one, two := [a + [sep] + b], [a, b];
    assert Join(two, sep) == a + [sep] + b by {
      assert two[1..] == [b];
    }
    if post != [] {
      JoinAppend(one, post, sep);
      JoinAppend(two, post, sep);
    }
    var m1, m2 := one + post, two + post;
    assert Join(m1, sep) == Join(m2, sep);
    if pre != [] {
      JoinAppend(pre, m1, sep);
      JoinAppend(pre, m2, sep);
    }
    assert pre + one + post == pre + m1;
    assert pre + two + post == pre + m2;
  }

  /** Splitting undoes joining when no part contains the separator. */
  lemma {:induction false} SplitJoin(parts: seq<string>, sep: char)
    requires |parts| >= 1
    requires forall p :: p in parts ==> sep !in p
    ensures Split(Join(parts, sep), sep) == parts
  {
    if |parts| == 1 {
      SplitNoSep(parts[0], sep);
    } else {
      SplitJoin(parts[1..], sep);
      SplitPrefix(parts[0], Join(parts[1..], sep), sep);
      assert [parts[0]] + parts[1..] == parts;
    }
  }

  lemma {:induction false} SplitNoSep(s: string, sep: char)
    requires sep !in s
    ensures Split(s, sep) == [s]
  {
    if s != [] {
      SplitNoSep(s[1..], sep);
    }
  }

  lemma {:induction false} SplitPrefix(p: string, rest: string, sep: char)
    requires sep !in p
    ensures Split(p + [sep] + rest, sep) == [p] + Split(rest, sep)
  {
    if p == [] {
      assert p + [sep] + rest == [sep] + rest;
      assert ([sep] + rest)[1..] == rest;
    } else {
      var s := p + [sep] + rest;
      assert s[1..] == p[1..] + [sep] + rest;
      SplitPrefix(p[1..], rest, sep);
      assert [p[0]] + p[1..] == p;
    }
  }

  /** Splitting at a separator splits each side independently: the reason
      a comma inside one value is equivalent to repeating the parameter. */
  lemma SplitAround(a: string, b: string, sep: char)
    ensures Split(a + [sep] + b, sep) == Split(a, sep) + Split(b, sep)
  {
    var xs := Split(a, sep);
    var ys := Split(b, sep);
    JoinAppend(xs, ys, sep);
    SplitJoin(xs + ys, sep);
  }

  predicate OccursAt(needle: string, hay: string, i: nat)
    requires i + |needle| <= |hay|
  {
    hay[i..i + |needle|] == needle
  }

  predicate IsInfix(needle: string, hay: string) {
    exists i: nat :: i + |needle| <= |hay| && OccursAt(needle, hay, i)
  }

  /** Django's `icontains`: `needle` occurs in `hay` once both are lower-cased. */
  predicate IContains(hay: string, needle: string) {
    IsInfix(Lower(needle), Lower(hay))
  }

  /** The match ignores the case of both sides. */
  lemma IContainsIgnoresCase(hay: string, needle: string)
    ensures IContains(Lower(hay), needle) == IContains(hay, needle)
    ensures IContains(hay, Lower(needle)) == IContains(hay, needle)
  {
    LowerIdempotent(hay);
    LowerIdempotent(needle);
  }

  /** Every string contains itself, whatever the case of either copy. */
  lemma IContainsSelf(hay: string, needle: string)
    requires Lower(hay) == Lower(needle)
    ensures IContains(hay, needle)
  {
    assert OccursAt(Lower(needle), Lower(hay), 0);
  }
}

=== FILE: views.dfy ===
/** The listing view: compiles the facets of a request into the chain of
    filters `get_queryset` applies to the catalogue, removes duplicate rows,
    orders by download count, and cuts one page. */
module Views {
  import opened Results
  import opened Text
  import opened QueryDicts
  import opened Models
  import opened Filters
  import opened Ordering
  import opened Facets
  import opened Serializers
  import opened Pagination

  /** The filters the view chains, one per facet that has values, in the
      order the view applies them. */
  function Criteria(v: FacetValues): seq<Filter> {
    When(v.ids != [], GutenbergIdIn(v.ids))
    + When(v.languages != [], LanguageIn(v.languages))
    + When(v.mimeTypes != [], MimeTypeIn(v.mimeTypes))
    + When(v.topics != [], TopicLike(v.topics))
    + When(v.authors != [], AuthorLike(v.authors))
    + When(v.titles != [], TitleLike(v.titles))
  }

  /** The filter `f` if its facet has values, nothing otherwise. */
  function When(active: bool, f: Filter): seq<Filter> {
    if active then [f] else []
  }

  lemma HoldsAllConcat(cat: Catalog, b: Book, fs: seq<Filter>, gs: seq<Filter>)
    ensures HoldsAll(cat, b, fs + gs) <==> HoldsAll(cat, b, fs) && HoldsAll(cat, b, gs)
  {
    assert forall f :: f in fs + gs <==> f in fs || f in gs;
  }

  lemma HoldsWhen(cat: Catalog, b: Book, active: bool, f: Filter)
    ensures HoldsAll(cat, b, When(active, f)) <==> !active || Holds(cat, b, f)
  {
    if active {
      assert f in When(active, f);
    }
  }

  /** What a set of facet values asks of a book: every facet that has values
      holds of it; a facet without values asks nothing. */
  predicate Keeps(cat: Catalog, v: FacetValues, b: Book) {
    && (v.ids == [] || HasGutenbergId(b, v.ids))
    && (v.languages == [] || InLanguage(cat, b, v.languages))
    && (v.mimeTypes == [] || OffersMimeType(cat, b, v.mimeTypes))
    && (v.topics == [] || OnTopic(cat, b, v.topics))
    && (v.authors == [] || ByAuthor(cat, b, v.authors))
    && (v.titles == [] || Titled(b, v.titles))
  }

  /** The chained filters mean exactly the conjunction of the active facets. */
  lemma CriteriaMeaning(cat: Catalog, v: FacetValues, b: Book)
    ensures HoldsAll(cat, b, Criteria(v)) <==> Keeps(cat, v, b)
  {
    var c1 := When(v.ids != [], GutenbergIdIn(v.ids));
    var c2 := c1 + When(v.languages != [], LanguageIn(v.languages));
    var c3 := c2 + When(v.mimeTypes != [], MimeTypeIn(v.mimeTypes));
    var c4 := c3 + When(v.topics != [], TopicLike(v.topics));
    var c5 := c4 + When(v.authors != [], AuthorLike(v.authors));
    HoldsAllConcat(cat, b, c1, When(v.languages != [], LanguageIn(v.languages)));
    HoldsAllConcat(cat, b, c2, When(v.mimeTypes != [], MimeTypeIn(v.mimeTypes)));
    HoldsAllConcat(cat, b, c3, When(v.topics != [], TopicLike(v.topics)));
    HoldsAllConcat(cat, b, c4, When(v.authors != [], AuthorLike(v.authors)));
    HoldsAllConcat(cat, b, c5, When(v.titles != [], TitleLike(v.titles)));
    HoldsWhen(cat, b, v.ids != [], GutenbergIdIn(v.ids));
    HoldsWhen(cat, b, v.languages != [], LanguageIn(v.languages));
    HoldsWhen(cat, b, v.mimeTypes != [], MimeTypeIn(v.mimeTypes));
    HoldsWhen(cat, b, v.topics != [], TopicLike(v.topics));
    HoldsWhen(cat, b, v.authors != [], AuthorLike(v.authors));
    HoldsWhen(cat, b, v.titles != [], TitleLike(v.titles));
  }

  /** `get_queryset` followed by evaluation against an in-memory catalogue.
      Fails exactly when `gutenberg_id` is invalid or too long to cast, or
      `author` is invalid, naming `gutenberg_id` first; otherwise lists every
      book the facets keep, each once, by download count, largest first. */
  function Compile(q: QueryDict, cat: Catalog, nulls: NullPlacement): (r: Result<seq<Book>, ApiError>)
    ensures r.Success? <==> IdsValid(GetList(q, GutenbergIdKey)) && IdsFit(GetList(q, GutenbergIdKey)) && AuthorsValid(GetList(q, AuthorKey))
    ensures !IdsValid(GetList(q, GutenbergIdKey)) ==> r == Failure(Invalid(GutenbergIdKey, GutenbergIdMessage))
    ensures IdsValid(GetList(q, GutenbergIdKey)) && !IdsFit(GetList(q, GutenbergIdKey)) ==> r == Failure(ParseIds(GetList(q, GutenbergIdKey)).error)
    ensures IdsValid(GetList(q, GutenbergIdKey)) && IdsFit(GetList(q, GutenbergIdKey)) && !AuthorsValid(GetList(q, AuthorKey)) ==> r == Failure(Invalid(AuthorKey, AuthorMessage))
    ensures r.Success? ==> forall b :: b in r.value <==> b in cat.books && Keeps(cat, Validate(ReadFacets(q)).value, b)
    ensures r.Success? ==> AtMostOnce(r.value)
    ensures r.Success? ==> ByDownloads(r.value, nulls)
  {
    var v :- Validate(ReadFacets(q));
    Success(Listing(v, cat, nulls))
  }

  /** The validated facets applied to the catalogue: the matching books,
      each once, by descending download count. */
  function Listing(v: FacetValues, cat: Catalog, nulls: NullPlacement): (r: seq<Book>)
    ensures forall b :: b in r <==> b in cat.books && Keeps(cat, v, b)
    ensures AtMostOnce(r)
    ensures ByDownloads(r, nulls)
  {
    var rows := Where(cat.books, cat, Criteria(v));
    forall b ensures HoldsAll(cat, b, Criteria(v)) <==> Keeps(cat, v, b) {
      CriteriaMeaning(cat, v, b);
    }
    var unique := Distinct(rows);
    var sorted := SortByDownloads(unique, nulls);
    assert forall b :: b in sorted <==> b in unique by {
      forall b
        ensures b in sorted <==> b in unique
      {
        assert b in sorted <==> b in multiset(sorted);
      }
    }
    sorted
  }

  /** One page of the listing, each book shown as the serializer shows it.
      The page number is the request's; a page past the end is empty. */
  function ListBooks(q: QueryDict, cat: Catalog, nulls: NullPlacement, number: nat): (r: Result<seq<BookOut>, ApiError>)
    requires number >= 1
    ensures r.Success? <==> Compile(q, cat, nulls).Success?
    ensures r.Failure? ==> r.error == Compile(q, cat, nulls).error
    ensures r.Success? ==> |r.value| <= PageSize(q)
    ensures r.Success? ==> |r.value| == |Page(Compile(q, cat, nulls).value, number, PageSize(q))|
    ensures r.Success? ==> forall i :: 0 <= i < |r.value| ==>
      PageStart(number, PageSize(q)) + i < |Compile(q, cat, nulls).value| &&
      r.value[i] == SerializeBook(cat, Compile(q, cat, nulls).value[PageStart(number, PageSize(q)) + i])
  {
    var listed := Compile(q, cat, nulls);
    if listed.Failure? then Failure(listed.error)
    else Success(SerializeAll(cat, Page(listed.value, number, PageSize(q))))
  }

  function SerializeAll(cat: Catalog, books: seq<Book>): (r: seq<BookOut>)
    ensures |r| == |books|
    ensures forall i :: 0 <= i < |r| ==> r[i] == SerializeBook(cat, books[i])
  {
    seq(|books|, i requires 0 <= i < |books| => SerializeBook(cat, books[i]))
  }

  /** Under unique primary keys the listing never shows one book twice, even
      by key. */
  lemma ListedKeysUnique(q: QueryDict, cat: Catalog, nulls: NullPlacement, i: nat, j: nat)
    requires WellFormed(cat)
    requires Compile(q, cat, nulls).Success?
    requires i < j < |Compile(q, cat, nulls).value|
    ensures Compile(q, cat, nulls).value[i].id != Compile(q, cat, nulls).value[j].id
  {
    var r := Compile(q, cat, nulls).value;
    KeysUniqueAmong(r, cat.books, i, j);
  }

  lemma KeysUniqueAmong(r: seq<Book>, books: seq<Book>, i: nat, j: nat)
    requires UniqueKeys(books, BookId) && AtMostOnce(r)
    requires forall b :: b in r ==> b in books
    requires i < j < |r|
    ensures r[i].id != r[j].id
  {
    AtMostOnceDistinctPositions(r, i, j);
    assert r[i] in r && r[j] in r;
    var p :| 0 <= p < |books| && books[p] == r[i];
    var p' :| 0 <= p' < |books| && books[p'] == r[j];
    assert p != p';
    if p < p' {
      assert BookId(books[p]) != BookId(books[p']);
    } else {
      assert BookId(books[p']) != BookId(books[p]);
    }
  }

  /** `fine` asks everything `coarse` asks: each of its facets either equals
      the one in `coarse` or is one that `coarse` left without values. */
  predicate AddsFacets(coarse: FacetValues, fine: FacetValues) {
    && (coarse.ids == [] || fine.ids == coarse.ids)
    && (coarse.languages == [] || fine.languages == coarse.languages)
    && (coarse.mimeTypes == [] || fine.mimeTypes == coarse.mimeTypes)
    && (coarse.topics == [] || fine.topics == coarse.topics)
    && (coarse.authors == [] || fine.authors == coarse.authors)
    && (coarse.titles == [] || fine.titles == coarse.titles)
  }

  /** AND across facets: adding facets never admits a book. */
  lemma MoreFacetsNarrow(cat: Catalog, coarse: FacetValues, fine: FacetValues, b: Book)
    requires AddsFacets(coarse, fine) && Keeps(cat, fine, b)
    ensures Keeps(cat, coarse, b)
  {
  }

  /** `fine` has every value `coarse` has, facet by facet, and no facet that
      `coarse` leaves without values. */
  predicate AddsValues(coarse: FacetValues, fine: FacetValues) {
    && (coarse.ids == [] <==> fine.ids == []) && Included(coarse.ids, fine.ids)
    && (coarse.languages == [] <==> fine.languages == []) && Included(coarse.languages, fine.languages)
    && (coarse.mimeTypes == [] <==> fine.mimeTypes == []) && Included(coarse.mimeTypes, fine.mimeTypes)
    && (coarse.topics == [] <==> fine.topics == []) && Included(coarse.topics, fine.topics)
    && (coarse.authors == [] <==> fine.authors == []) && Included(coarse.authors, fine.authors)
    && (coarse.titles == [] <==> fine.titles == []) && Included(coarse.titles, fine.titles)
  }

  /** OR within a facet: more values for facets already present never reject a book. */
  lemma MoreValuesWiden(cat: Catalog, coarse: FacetValues, fine: FacetValues, b: Book)
    requires AddsValues(coarse, fine) && Keeps(cat, coarse, b)
    ensures Keeps(cat, fine, b)
  {
    HoldsWidens(cat, b, TopicLike(coarse.topics), TopicLike(fine.topics));
    HoldsWidens(cat, b, AuthorLike(coarse.authors), AuthorLike(fine.authors));
    HoldsWidens(cat, b, TitleLike(coarse.titles), TitleLike(fine.titles));
  }

  /** Whether the request's facet for parameter `key` has values; the
      language facet is fed by two parameters. */
  predicate FacetActive(q: QueryDict, key: string) {
    if key == LanguageKey || key == LanguagesKey then
      LanguageTokens(Get(q, LanguageKey, ""), GetList(q, LanguagesKey)) != []
    else
      GetList(q, key) != []
  }

  /** `fine` keeps every facet of `coarse` that has values and may fill
      facets that `coarse` leaves without values. */
  predicate RawAddsFacets(coarse: RawFacets, fine: RawFacets) {
    && (coarse.ids == [] || fine.ids == coarse.ids)
    && (LanguageTokens(coarse.language, coarse.languages) == []
        || (fine.language == coarse.language && fine.languages == coarse.languages))
    && (coarse.mimeTypes == [] || fine.mimeTypes == coarse.mimeTypes)
    && (coarse.topics == [] || fine.topics == coarse.topics)
    && (coarse.authors == [] || fine.authors == coarse.authors)
    && (coarse.titles == [] || fine.titles == coarse.titles)
  }

  lemma ValidateAddsFacets(coarse: RawFacets, fine: RawFacets)
    requires RawAddsFacets(coarse, fine) && Validate(fine).Success?
    ensures Validate(coarse).Success?
    ensures AddsFacets(Validate(coarse).value, Validate(fine).value)
  {
    var c := Validate(coarse).value;
    var f := Validate(fine).value;
    assert c.ids == [] || f.ids == c.ids;
    assert c.mimeTypes == [] || f.mimeTypes == c.mimeTypes;
  }

  lemma ReadFacetsAddsFacets(q: QueryDict, key: string, values: seq<string>)
    requires !FacetActive(q, key)
    ensures RawAddsFacets(ReadFacets(q), ReadFacets(q[key := values]))
  {
    var raw, raw' := ReadFacets(q), ReadFacets(q[key := values]);
    if key == LanguageKey || key == LanguagesKey {
      assert LanguageTokens(raw.language, raw.languages) == [];
    } else {
      assert raw'.language == raw.language && raw'.languages == raw.languages;
    }
    assert raw.ids == [] || raw'.ids == raw.ids;
    assert raw.mimeTypes == [] || raw'.mimeTypes == raw.mimeTypes;
    assert raw.topics == [] || raw'.topics == raw.topics;
    assert raw.authors == [] || raw'.authors == raw.authors;
    assert raw.titles == [] || raw'.titles == raw.titles;
  }

  /** Adding a parameter for a facet the request did not use never enlarges
      the listing. */
  lemma AddingFacetNeverEnlarges(q: QueryDict, key: string, values: seq<string>, cat: Catalog, nulls: NullPlacement)
    requires !FacetActive(q, key)
    requires Compile(q[key := values], cat, nulls).Success?
    ensures Compile(q, cat, nulls).Success?
    ensures Included(Compile(q[key := values], cat, nulls).value, Compile(q, cat, nulls).value)
  {
    var q' := q[key := values];
    var raw, raw' := ReadFacets(q), ReadFacets(q');
    ReadFacetsAddsFacets(q, key, values);
    ValidateAddsFacets(raw, raw');
    var coarse := Validate(raw).value;
    var fine := Validate(raw').value;
    var small := Compile(q', cat, nulls).value;
    var large := Compile(q, cat, nulls).value;
    forall b | b in small
      ensures b in large
    {
      MoreFacetsNarrow(cat, coarse, fine, b);
    }
  }

  /** One more `gutenberg_id` value keeps every number already requested. */
  lemma IdsAppendWiden(values: seq<string>, v: string)
    requires values != [] && ParseIds(values).Success? && ParseIds(values + [v]).Success?
    ensures ParseIds(values + [v]).value != []
    ensures Included(ParseIds(values).value, ParseIds(values + [v]).value)
  {
    var joined := Join(values, ',');
    assert Join([v], ',') == v;
    JoinAppend(values, [v], ',');
    SplitAround(joined, v, ',');
    var parts := Split(joined, ',');
    var parts' := Split(Join(values + [v], ','), ',');
    assert parts' == parts + Split(v, ',');
    forall t | t in IdTokens(values)
      ensures t in IdTokens(values + [v])
    {
      var i :| 0 <= i < |IdTokens(values)| && IdTokens(values)[i] == t;
      assert IdTokens(values + [v])[i] == Strip(parts'[i]) == Strip(parts[i]);
    }
  }

  /** One more `languages` value keeps every language code already requested. */
  lemma LanguagesAppendWiden(language: string, languages: seq<string>, v: string)
    ensures Included(LanguageTokens(language, languages), LanguageTokens(language, languages + [v]))
  {
    var raw := RawLanguageTokens(language, languages);
    var raw' := RawLanguageTokens(language, languages + [v]);
    assert Join([v], ',') == v;
    if languages == [] {
      assert language + "," + Join(languages, ',') == language + [','] + [];
      assert language + "," + Join(languages + [v], ',') == language + [','] + v;
      SplitAround(language, [], ',');
      SplitAround(language, v, ',');
      assert raw == Split(language, ',') + [[]];
      assert raw' == Split(language, ',') + Split(v, ',');
      forall x | x in raw && !AllSpace(x)
        ensures x in raw'
      {
        assert x != [];
        assert x in Split(language, ',');
      }
    } else {
      var prefix := language + "," + Join(languages, ',');
      JoinAppend(languages, [v], ',');
      assert language + "," + Join(languages + [v], ',') == prefix + [','] + v;
      SplitAround(prefix, v, ',');
      assert raw' == raw + Split(v, ',');
    }
  }

  lemma LowerAllAppend(values: seq<string>, v: string)
    ensures Included(LowerAll(values), LowerAll(values + [v]))
  {
    forall t | t in LowerAll(values)
      ensures t in LowerAll(values + [v])
    {
      var i :| 0 <= i < |values| && LowerAll(values)[i] == t;
      assert LowerAll(values + [v])[i] == t;
    }
  }

  /** The parameters that feed a facet through `getlist`. */
  predicate ListedFacetKey(key: string) {
    || key == GutenbergIdKey || key == LanguagesKey || key == MimeTypeKey
    || key == TopicKey || key == AuthorKey || key == TitleKey
  }

  /** Appending one more value to a `getlist` parameter of a facet the
      request already uses never removes a book from the listing. */
  lemma AddingValueNeverShrinks(q: QueryDict, key: string, v: string, cat: Catalog, nulls: NullPlacement)
    requires ListedFacetKey(key) && FacetActive(q, key)
    requires Compile(q, cat, nulls).Success?
    requires Compile(q[key := GetList(q, key) + [v]], cat, nulls).Success?
    ensures Included(Compile(q, cat, nulls).value, Compile(q[key := GetList(q, key) + [v]], cat, nulls).value)
  {
    var q' := q[key := GetList(q, key) + [v]];
    var raw, raw' := ReadFacets(q), ReadFacets(q');
    ReadFacetsAddsValue(q, key, v);
    var coarse := Validate(raw).value;
    var fine := Validate(raw').value;
    ValidateAddsValues(raw, key, v);
    var small := Compile(q, cat, nulls).value;
    var large := Compile(q', cat, nulls).value;
    forall b | b in small
      ensures b in large
    {
      MoreValuesWiden(cat, coarse, fine, b);
    }
  }

  /** `raw` with `v` appended to the values of the `getlist` parameter `key`. */
  function Appended(raw: RawFacets, key: string, v: string): RawFacets {
    if key == GutenbergIdKey then raw.(ids := raw.ids + [v])
    else if key == LanguagesKey then raw.(languages := raw.languages + [v])
    else if key == MimeTypeKey then raw.(mimeTypes := raw.mimeTypes + [v])
    else if key == TopicKey then raw.(topics := raw.topics + [v])
    else if key == AuthorKey then raw.(authors := raw.authors + [v])
    else if key == TitleKey then raw.(titles := raw.titles + [v])
    else raw
  }

  lemma ReadFacetsAddsValue(q: QueryDict, key: string, v: string)
    requires ListedFacetKey(key)
    ensures ReadFacets(q[key := GetList(q, key) + [v]]) == Appended(ReadFacets(q), key, v)
  {
    ParameterNamesDistinct();
  }

  lemma ValidateAddsValues(raw: RawFacets, key: string, v: string)
    requires ListedFacetKey(key)
    requires key == GutenbergIdKey ==> raw.ids != []
    requires key == LanguagesKey ==> LanguageTokens(raw.language, raw.languages) != []
    requires key == MimeTypeKey ==> raw.mimeTypes != []
    requires key == TopicKey ==> raw.topics != []
    requires key == AuthorKey ==> raw.authors != []
    requires key == TitleKey ==> raw.titles != []
    requires Validate(raw).Success? && Validate(Appended(raw, key, v)).Success?
    ensures AddsValues(Validate(raw).value, Validate(Appended(raw, key, v)).value)
  {
    ParameterNamesDistinct();
    if key == GutenbergIdKey {
      AddIdValue(raw, v);
    } else if key == LanguagesKey {
      AddLanguagesValue(raw, v);
    } else if key == MimeTypeKey {
      AddMimeTypeValue(raw, v);
    } else {
      AddTextValue(raw, key, v);
    }
  }

  lemma AddIdValue(raw: RawFacets, v: string)
    requires raw.ids != []
    requires Validate(raw).Success? && Validate(raw.(ids := raw.ids + [v])).Success?
    ensures AddsValues(Validate(raw).value, Validate(raw.(ids := raw.ids + [v])).value)
  {
    IdsAppendWiden(raw.ids, v);
  }

  lemma AddLanguagesValue(raw: RawFacets, v: string)
    requires LanguageTokens(raw.language, raw.languages) != []
    requires Validate(raw).Success? && Validate(raw.(languages := raw.languages + [v])).Success?
    ensures AddsValues(Validate(raw).value, Validate(raw.(languages := raw.languages + [v])).value)
  {
    var raw' := raw.(languages := raw.languages + [v]);
    var c, f := Validate(raw).value, Validate(raw').value;
    var before := LanguageTokens(raw.language, raw.languages);
    var after := LanguageTokens(raw'.language, raw'.languages);
    LanguagesAppendWiden(raw.language, raw.languages, v);
    assert before[0] in after;
    assert c.languages == before && f.languages == after;
    assert c.ids == f.ids && c.mimeTypes == f.mimeTypes && c.topics == f.topics;
    assert c.authors == f.authors && c.titles == f.titles;
  }

  lemma AddMimeTypeValue(raw: RawFacets, v: string)
    requires raw.mimeTypes != []
    requires Validate(raw).Success? && Validate(raw.(mimeTypes := raw.mimeTypes + [v])).Success?
    ensures AddsValues(Validate(raw).value, Validate(raw.(mimeTypes := raw.mimeTypes + [v])).value)
  {
    LowerAllAppend(raw.mimeTypes, v);
  }

  lemma AddTextValue(raw: RawFacets, key: string, v: string)
    requires key == TopicKey || key == AuthorKey || key == TitleKey
    requires key == TopicKey ==> raw.topics != []
    requires key == AuthorKey ==> raw.authors != []
    requires key == TitleKey ==> raw.titles != []
    requires Validate(raw).Success? && Validate(Appended(raw, key, v)).Success?
    ensures AddsValues(Validate(raw).value, Validate(Appended(raw, key, v)).value)
  {
    ParameterNamesDistinct();
  }

  /** The singular `language` parameter is read with `get`: of several
      `language` values only the last one filters, the earlier ones are
      ignored. */
  lemma SingularLanguageUsesLastValue(q: QueryDict, earlier: seq<string>, last: string, cat: Catalog, nulls: NullPlacement)
    ensures Compile(q[LanguageKey := earlier + [last]], cat, nulls) == Compile(q[LanguageKey := [last]], cat, nulls)
  {
    ParameterNamesDistinct();
    var q1, q2 := q[LanguageKey := earlier + [last]], q[LanguageKey := [last]];
    assert Get(q1, LanguageKey, "") == last;
    assert Get(q2, LanguageKey, "") == last;
    assert ReadFacets(q1) == ReadFacets(q2);
  }

  /** For `gutenberg_id` and `languages` a comma inside one value acts like
      repeating the parameter: the value `a,b` lists exactly as the two
      values `a` and `b`. */
  lemma CommaJoinedAsRepeated(q: QueryDict, key: string, pre: seq<string>, a: string, b: string, post: seq<string>,
                              cat: Catalog, nulls: NullPlacement)
    requires key == GutenbergIdKey || key == LanguagesKey
    ensures Compile(q[key := pre + [a + "," + b] + post], cat, nulls) == Compile(q[key := pre + [a, b] + post], cat, nulls)
  {
    var joined, repeated := pre + [a + "," + b] + post, pre + [a, b] + post;
    CommaJoinedValidates(q, key, pre, a, b, post);
    SameFacetsSameListing(q[key := joined], q[key := repeated], cat, nulls);
  }

  lemma CommaJoinedValidates(q: QueryDict, key: string, pre: seq<string>, a: string, b: string, post: seq<string>)
    requires key == GutenbergIdKey || key == LanguagesKey
    ensures Validate(ReadFacets(q[key := pre + [a + "," + b] + post])) == Validate(ReadFacets(q[key := pre + [a, b] + post]))
  {
    var joined, repeated := pre + [a + "," + b] + post, pre + [a, b] + post;
    JoinSplice(pre, a, b, post, ',');
    assert Join(joined, ',') == Join(repeated, ',');
    ParameterNamesDistinct();
    var r1, r2 := ReadFacets(q[key := joined]), ReadFacets(q[key := repeated]);
    if key == GutenbergIdKey {
      assert r2 == r1.(ids := repeated);
      assert IdTokens(joined) == IdTokens(repeated);
      assert ParseIds(joined) == ParseIds(repeated);
    } else {
      assert r2 == r1.(languages := repeated);
      assert LanguageTokens(r1.language, joined) == LanguageTokens(r1.language, repeated);
    }
  }

  /** Requests whose facets validate alike list alike. */
  lemma SameFacetsSameListing(q1: QueryDict, q2: QueryDict, cat: Catalog, nulls: NullPlacement)
    requires Validate(ReadFacets(q1)) == Validate(ReadFacets(q2))
    ensures Compile(q1, cat, nulls) == Compile(q2, cat, nulls)
  {
  }
}
